=== FILE: README.md ===
# api-builder-utility schema assembly, in Dafny

This project models the core of `api-builder-utility`. The tool assembles one
OpenAPI document out of a directory of YAML fragments:

- `./entities/common.yml` holds shared definitions;
- `./entities/writes/*.yml` hold input ("write") schemas;
- `./entities/*.yml` hold full-object schemas;
- `./openApiPaths.yml` holds the paths.

Every fragment is registered under a name derived from its file name
(`user.yml` becomes `writeUser` or `userObject`). Every `$ref` between
fragments is rewritten to `#/components/schemas/<name>`. The merged map goes
into `components.schemas`, with a default security block when the document
has no `components`. A second program renders the schema names as a Markdown
reference.

The model is functional. Parsed YAML is the `Tree.Json` datatype, where an
object is an ordered sequence of members. Directory listings and file contents
are inputs.

| module (file) | what it models |
|---|---|
| `Wrappers` (wrappers.dfy) | `Option` and `Result` |
| `Tree` (json.dfy) | parsed documents; property lookup and assignment, `Object.assign`, the duplicate-name rule of `JSON.parse` |
| `Strings` (strings.dfy) | the string built-ins the code uses: `includes`, `replace` (first and global), `split`, `charAt(0).toUpperCase()`, `slice(1)`, default sort order |
| `Names` (names.dfy) | schema names from file names; `fixWrite` and `fixObj` |
| `Refs` (refs.dfy) | `fixRefs`, including its swallowed exceptions: `RewriteRef` is the `$ref` test of lib.js:134-141, `FixRefs`/`FixMembers`/`FixItems` the walk of lib.js:131-155 |
| `Assembly` (assembly.dfy) | `factory.parseEntities`: `OwnProperties` and `CommonContribution` are the `Object.assign` of lib.js:11-13; `Fragment` is the `{name: ...}` object with its text substitution and `fixRefs` (lib.js:21-26, lib.js:38-42); `WriteContribution` and `ObjectContribution` are the per-file bodies of lib.js:18-29 and lib.js:35-44; `ParseEntities` folds them (lib.js:8-47) |
| `Compose` (compose.dfy) | `factory.buildSwag`: `DefaultComponents` is the block of lib.js:59-90; `InstallInObject` and `Install` are lib.js:59-91; `BuildSwag` is lib.js:55-93 |
| `Docs` (docs.dfy) | docs.js: `Classify` and `Bucket` are the grouping of docs.js:16-24; `Sort` is `sort()`; `Rows` the table rows of docs.js:31-33; `Section` one section of docs.js:27-54; `Render` (for any fixed texts) and `Reference` (the docs.js texts, `DocsText`) the whole document of docs.js:8-89 |

### Where the code does not do what its naming suggests

The model follows the code, including in these places, where the behaviour differs from what the names and the structure of the code suggest:

- A bare `foo.yml` inside a write fragment becomes `#/components/schemas/fooObject`, not `writeFoo`.
  - `fixRefs` passes `localToWrites` only to the root object (lib.js:145, lib.js:149).
  - The root is always `{name: fragment}`, and `name` is never `$ref`.
  - So write-local mode never takes effect (`Refs.BareRefInWriteFragment`).
- In object fragments, `../common.yml#/definitions/x` becomes `../#/components/schemas/x`.
  - The object-phase pattern has no `../` (lib.js:41).
  - `fixRefs` keeps that pointer, because it contains `/` (`Assembly.RelativeObjectCommonRefKept`).
- The common file is read from the fixed path `./entities/common.yml` (lib.js:11).
  - A missing common file aborts the assembly. It is not skipped.
  - No other name is looked for. The comparison `w !== 'common.yml'` in the object phase (lib.js:35) is case-sensitive, and so is the lookup of the common file in the model; file-system case folding is not modelled.
- A write fragment that loads to null is skipped (lib.js:23).
  - An object fragment that loads to null is stored as null (lib.js:40-43).
  - An empty file loads to `undefined`. `JSON.stringify` drops it, so it contributes nothing in either phase.
- The default `components` block replaces `components` when it is absent or falsy (`!swag.components`, lib.js:59). Absence is not the only trigger.
- Any `$ref` containing "writes/" is rewritten to a write-schema pointer (lib.js:135-136), JSON pointers included.
  - So a JSON-pointer reference does not always pass through unchanged, although the second branch (lib.js:138) is shaped to leave pointers alone.
  - `#/definitions/rewrites/item` becomes `#/components/schemas/writeItem` (`Refs.PointerWithWritesRewritten`).
- Exceptions are swallowed at every level of `fixRefs`, not only in array descent.
  - A `$ref` holding an object, null, a boolean or a number is kept unchanged, and nothing under it is rewritten.
  - Descending into null keeps null.

## Model

| member | source | states |
|---|---|---|
| Tree.Get | lib.js:23 | a lookup is undefined exactly when no property has that name |
| Tree.Put | lib.js:22 | after `o[k] = v`, reading `o[k]` gives `v` |
| Tree.PutKeys | lib.js:91 | assigning an existing property keeps names and order; a new one is appended last |
| Tree.PutFrame | lib.js:91 | assigning one property leaves every other property's value unchanged |
| Tree.PutDistinct | lib.js:22 | assignment never creates a duplicate property name |
| Tree.PutPresent | lib.js:91 | assigning a property its current value changes nothing |
| Tree.PutAll | lib.js:13 | `Object.assign` yields exactly the names of target and source, and keeps names distinct |
| Tree.PutAllLastWins | lib.js:27 | after `Object.assign`, each name holds the source's last value for it, or the target's value if the source lacks it |
| Tree.PutAllAppend | lib.js:13-43 | assigning two batches in turn equals assigning their concatenation |
| Tree.PutAllSnoc | lib.js:27 | assigning one more property after a batch is a single assignment on the batch's result |
| Tree.Dedup | lib.js:25 | `JSON.parse` of an object yields distinct names, exactly the names in the text |
| Tree.DedupDistinct | lib.js:25 | re-parsing members whose names are already distinct gives them back unchanged |
| Tree.LastValueFound | lib.js:27 | a batch assigns a name exactly when one of its members carries it |
| Tree.LastValueUnique | lib.js:27 | with distinct names, the value assigned to a name is that of its one member |
| Tree.LastValueSameMembers | lib.js:16-30 | two batches with distinct names and the same members assign the same values, in any order |
| Tree.InKeys | lib.js:13 | a name is listed by `Object.keys` exactly when a member carries it |
| Strings.IndexOf | lib.js:20 | the position found is the first occurrence; none exactly when the pattern does not occur |
| Strings.ContainsChar | lib.js:138 | `s.includes(c)` for one character is membership of `c` |
| Strings.ReplaceFirst | lib.js:20 | without an occurrence the string is unchanged; with one, the length changes by the replacement's length minus the pattern's; no character appears that is in neither |
| Strings.ReplaceFirstAt | lib.js:20 | `replace` with a string pattern rewrites the first occurrence and keeps everything before and after it |
| Strings.ReplaceAll | lib.js:25 | a global replace without an occurrence changes nothing and adds no character beyond the replacement's |
| Strings.ReplaceAllAt | lib.js:25 | the global replace rewrites the first occurrence and continues after it |
| Strings.Split | lib.js:114 | `split('/')` gives at least one part, no part holds the separator, and more than one part exactly when the separator occurs |
| Strings.SplitJoin | lib.js:114 | joining the parts of a split gives the string back |
| Strings.LastSegment | lib.js:115 | the last part holds no separator |
| Strings.LastSegmentAfter | lib.js:114-115 | the last part of `p/f` is `f`, whatever `p` is |
| Strings.Upper | lib.js:20 | `toUpperCase` maps an ASCII lower-case letter to its capital and keeps every other character |
| Strings.UpperFirst | lib.js:20 | `charAt(0).toUpperCase()` is empty for the empty string, else the capitalised first character |
| Strings.Tail | lib.js:20 | `slice(1)` is what follows the first character |
| Strings.BelowTotal | docs.js:31 | any two strings are comparable in the default sort order |
| Strings.BelowAntisymmetric | docs.js:31 | strings that are mutually below each other are equal |
| Strings.BelowTransitive | docs.js:31 | the default sort order is transitive |
| Strings.DecimalString | lib.js:13 | the name an array index gets from `Object.assign` is a non-empty string of digits without a leading zero |
| Strings.DecimalStringValue | lib.js:13 | read back as a decimal number, the name of an index is that index |
| Strings.DecimalStringInjective | lib.js:13 | two indices get the same name exactly when they are equal |
| Names.WriteName | lib.js:20 | a write schema name starts with "write" and contains no `/` if the file name has none |
| Names.ObjectName | lib.js:37 | an object schema name ends with "Object" and contains no `/` if the file name has none |
| Names.StripYml | lib.js:20 | removing the first ".yml" from `t.yml` gives `t` when `t` holds no ".yml" |
| Names.WriteNameOfFile | lib.js:20 | `<c><stem>.yml` in the writes directory is registered as `write<C><stem>` |
| Names.ObjectNameOfFile | lib.js:37 | `<stem>.yml` in the entities directory is registered as `<stem>Object` |
| Names.FixWrite | lib.js:112-119 | `fixWrite` always yields the schema prefix followed by one name without `/` |
| Names.FixObj | lib.js:121-129 | `fixObj` on a bare name yields the schema prefix followed by one name without `/` |
| Names.FixWriteTargetsWriteName | lib.js:114-116 | `fixWrite` on `<dir>writes/<f>` targets exactly the write name of `f` |
| Refs.NoWritesSegment | lib.js:135 | a string whose `w`s all come after its last `/` does not contain "writes/" |
| Refs.CanonicalIsStable | lib.js:116 | a canonical pointer contains `/` and no "writes/", so neither rewriting case matches it again |
| Refs.RewriteCasesExclusive | lib.js:135-138 | a reference into the writes directory contains `/`, so at most one of the two rewriting cases applies |
| Refs.RewriteCases | lib.js:134-141 | each rewriting case yields a canonical pointer that differs from its input |
| Refs.RewriteRef | lib.js:134-141 | a `$ref` string changes exactly when it contains "writes/", or it has ".yml" and no `/`; the result is then canonical |
| Refs.RewriteRefIdempotent | lib.js:134-141 | rewriting a rewritten `$ref` string changes nothing, in either mode |
| Refs.FixRefs | lib.js:131-155 | the rewritten tree has the input's shape: same constructors, array lengths, names and order; only `$ref` strings differ |
| Refs.FixItems | lib.js:143-147 | array descent keeps the length and each element's shape |
| Refs.FixMembers | lib.js:133-153 | object descent keeps every name in place and each value's shape |
| Refs.FixMember | lib.js:134-151 | one property keeps its name; only a `$ref` string, or what an array `$ref` holds, is rewritten |
| Refs.WritesRefTargetsWriteName | lib.js:135-136 | any `<dir>writes/<f>` reference becomes the pointer to `f`'s write name, in either mode |
| Refs.BareRefTargets | lib.js:138-139 | a bare `f.yml` becomes the pointer to `f`'s object name, or to its write name in write-local mode |
| Refs.OtherRefKept | lib.js:134-141 | a reference without "writes/" that has a `/` or no ".yml" is kept |
| Refs.PointerWithWritesRewritten | lib.js:135-136 | the JSON pointer `#/definitions/rewrites/item` contains "writes/" and becomes the pointer to `writeItem`, in either mode |
| Refs.FixRefsIdempotent | lib.js:131-155 | rewriting a rewritten tree changes nothing, whatever the modes |
| Refs.FixItemsIdempotent | lib.js:143-147 | re-running the array descent changes nothing |
| Refs.FixMembersIdempotent | lib.js:133-153 | re-running the object descent changes nothing |
| Refs.FixMemberIdempotent | lib.js:134-151 | re-running one property's rewrite changes nothing |
| Refs.ModeReachesRootRefsOnly | lib.js:145-149 | every root property except `$ref` comes out the same in both modes |
| Refs.ModeIrrelevantWithoutRootRef | lib.js:131-155 | a root without `$ref` is rewritten the same in both modes |
| Refs.BareRefInWriteFragment | lib.js:138-149 | in a write fragment `{name: {$ref: f.yml}}`, write-local mode still yields the object pointer |
| Assembly.Subst | lib.js:25 | the text round trip keeps arrays as arrays of the same length, and objects as objects with distinct names |
| Assembly.SubstItems | lib.js:25 | the substitution keeps array lengths |
| Assembly.SubstMembers | lib.js:25 | the substitution rewrites each property name with the global replace |
| Assembly.SubstUnmentioned | lib.js:25 | a well-formed tree without the pattern survives the round trip unchanged |
| Assembly.WritePatternRewritesCommonRef | lib.js:25 | in a write fragment, `../common.yml#/definitions<rest>` becomes `#/components/schemas<rest>` |
| Assembly.ObjectPatternOnRelativeRef | lib.js:41 | in an object fragment, `../common.yml#/definitions<rest>` becomes `../#/components/schemas<rest>` |
| Assembly.RelativeObjectCommonRefKept | lib.js:42 | `fixRefs` keeps such a `../#/components/schemas/<id>` pointer as it is |
| Assembly.FragmentShape | lib.js:21-27 | a fragment adds exactly one schema under its name: the document after substitution and rewriting |
| Assembly.Find | lib.js:11 | the common file found is a listed entry with that exact name; none means no entry has it |
| Assembly.ParseEntities | lib.js:8-47 | no entities directory means the common file cannot be read; success needs both listings and a common file; the names are distinct |
| Assembly.FindListed | lib.js:11 | in a listing, reading a file by name finds that file's entry |
| Assembly.WriteContributionShape | lib.js:16-30 | a write entry adds one schema under its write name, or nothing for non-".yml" names, empty files and null documents |
| Assembly.ObjectContributionShape | lib.js:33-45 | an object entry adds one schema under its object name, null included, or nothing for non-".yml" names, `common.yml` and empty files |
| Assembly.CollectMembers | lib.js:16 | a member is merged from a listing exactly when some entry contributes it |
| Assembly.WriteNames | lib.js:18-27 | the write phase registers exactly the write names of the non-empty, non-null ".yml" entries |
| Assembly.ObjectNames | lib.js:35-43 | the object phase registers exactly the object names of the non-empty ".yml" entries other than `common.yml` |
| Assembly.AssemblyOutcome | lib.js:11-15 | the assembly fails exactly when the common file is missing, loads to nothing or null, or the writes directory is missing; otherwise it succeeds |
| Assembly.AssembledValue | lib.js:13-43 | for each name, an object fragment beats a write fragment, which beats a common definition; within a phase, the entry read last wins |
| Assembly.CommonDefinitionsVerbatim | lib.js:11-13 | an object of common definitions is merged as it is, with no pointer rewritten |
| Assembly.IndexNamesDistinct | lib.js:13 | `definitions` holding an array or a string is merged under distinct names, one per element or character (a string's characters, not its UTF-16 code units) |
| Assembly.AssembledNames | lib.js:8-47 | the schema names are exactly the common definitions plus the names of the registered write and object entries |
| Assembly.ListingOrderIrrelevant | lib.js:16-45 | the order in which reads complete does not matter when no two files of a phase map to the same name |
| Assembly.WriteRefResolves | lib.js:135-136 | a rewritten reference into the writes directory names a schema that the assembly registers |
| Assembly.ObjectRefResolves | lib.js:138-139 | a bare file reference, rewritten in default mode, names a schema that the assembly registers |
| Compose.InstallInObject | lib.js:59-91 | an object document always ends up with a `components` property |
| Compose.BuildSwag | lib.js:55-94 | an unreadable paths file fails first; a failed assembly fails next, with its cause; a paths file that loads to nothing then fails with a TypeError |
| Compose.SchemasInstalled | lib.js:91 | when `components` is absent, falsy or an object, `components.schemas` becomes the assembled map |
| Compose.TopLevelFrame | lib.js:59-91 | every other top-level property keeps its value; names keep their order; `components` is appended only when absent |
| Compose.ExistingComponentsKept | lib.js:59 | an existing object `components` keeps everything except `schemas`, security schemes included |
| Compose.DefaultComponentsUsed | lib.js:59-90 | absent or falsy `components` becomes the default block with the assembled schemas |
| Compose.NonObjectComponentsIgnored | lib.js:91 | a truthy `components` that is not an object leaves the document unchanged |
| Compose.InstallIdempotent | lib.js:59-91 | building again from the built document with the same schemas changes nothing |
| Compose.NonObjectDocuments | lib.js:56-92 | a null or primitive paths document fails with a TypeError; an array comes back unchanged |
| Compose.BuildSwagInstalls | lib.js:56-92 | end to end: the built document's `components.schemas` is the assembled map, and every other top-level property is as loaded |
| Docs.Classify | docs.js:16-24 | "write" prefix first, then "Object" suffix, else common |
| Docs.Bucket | docs.js:16-24 | a group holds exactly the names of that kind |
| Docs.BucketsPartition | docs.js:16-24 | the three groups together hold every name exactly as often as it occurs |
| Docs.BucketCount | docs.js:16-24 | a name occurs in its own group as often as among all names, and in no other group |
| Docs.BucketPermutation | docs.js:16-24 | a group depends only on which names there are, not their order |
| Docs.WriteNamesListedAsWrite | docs.js:17 | every write schema name is listed as a write schema |
| Docs.ObjectNamesListedAsObject | docs.js:17-19 | the object name of `stem.yml` is listed as an object schema, or as a write schema when `stem` starts with "write" |
| Docs.BelowReflexive | docs.js:31 | every string is below itself in the default order |
| Docs.Insert | docs.js:31 | inserting adds exactly the one name |
| Docs.InsertSorted | docs.js:31 | inserting into a sorted sequence keeps it sorted |
| Docs.InsertFront | docs.js:31 | a name below the first element goes in front, and the result stays sorted |
| Docs.InsertBehind | docs.js:31 | a name above the first element goes behind it, and the result stays sorted |
| Docs.FirstIsLeast | docs.js:31 | the first element of a sorted sequence is below every later one |
| Docs.ConsSorted | docs.js:31 | a name below every element of a sorted sequence can go in front |
| Docs.Sort | docs.js:31 | `sort()` yields an ascending permutation of its input |
| Docs.SortedUnique | docs.js:31 | two ascending permutations of the same names are identical, so the algorithm does not matter |
| Docs.SortedLength | docs.js:31 | sorting keeps the number of names |
| Docs.RowLine | docs.js:32 | a row has no line break if its name has none |
| Docs.SplitFirst | docs.js:32 | a line followed by a break splits off as one part |
| Docs.RowsSplit | docs.js:31-33 | read back line by line, the rows are one line per name, in order |
| Docs.LineIn | docs.js:31-33 | text that starts a line, then a line without a break, then a break, has that line among its lines |
| Docs.RowsAppend | docs.js:31-33 | the rows of two runs of names are the rows of the first followed by those of the second |
| Docs.RowsEndLine | docs.js:32 | the rows are empty or end with a line break |
| Docs.RowInTable | docs.js:29-33 | when the table starts a line, each listed name's row is a line of the text around it |
| Docs.RenderFramed | docs.js:8-89 | whatever the fixed text, a rendered reference starts with its header and ends with its closing section |
| Docs.DocsFramed | docs.js:8-89 | the docs.js reference starts with "# API Reference" and its blurb, and ends with the quick-reference section |
| Docs.ReferenceOrderIndependent | docs.js:16-54 | the reference depends only on which names there are, not on the order `Object.keys` lists them |
| Docs.SameGroup | docs.js:31 | a group sorts to the same sequence whatever the order of the names |
| Docs.RowCount | docs.js:31-53 | the three tables together have one row per schema name |
| Docs.KeyRowListed | docs.js:16-53 | every name's row is a line of its group's table |
| Docs.GroupListing | docs.js:16-31 | a sorted group lists exactly the names of its kind |
| Docs.SectionOrder | docs.js:26-56 | the sections follow the header in the order write, full object, common, each ending where the next begins, and the quick reference follows the last |
| Docs.RenderLayout | docs.js:26-54 | each section is the stretch between its start and end, and opens with its heading |
| Docs.RowInFramedSection | docs.js:27-34 | after a table header that ends its line, a listed name's row is a line of any text holding the section |
| Docs.RowInSlice | docs.js:26-54 | a name's row is a line of the stretch of the reference that is its group's section |
| Docs.RowInWhole | docs.js:26-54 | a name's row is a line of the whole reference |
| Docs.RowInRender | docs.js:26-54 | a name's row is a line of its group's section and a line of the whole reference |
| Docs.SectionsInOrder | docs.js:26-54 | for the groups of the schema names, the write heading comes before the full-object heading, which comes before the common heading |
| Docs.DocsSectionsInOrder | docs.js:27-47 | the docs.js reference contains the write, full-object and common headings, in that order |
| Docs.RowInReference | docs.js:16-54 | every schema name's row is a line of the reference, inside the section of its group |
| Docs.DocsRowListed | docs.js:16-54 | every schema name's row is a line of the docs.js reference |
| Docs.TableHeaderEndsLine | docs.js:29-30 | the table header docs.js writes ends with a line break |

## Left out

- File-system access (`readFile`, `readdir`, `writeFile`, `unlink`, `existsSync`) and console output. Listings and loaded documents are inputs, and an unreadable file inside a listing is not modelled.
- YAML parsing and dumping. Documents are given already parsed. Parse errors are not modelled, and nor are YAML types with no JSON counterpart: dates become strings in the text round trip, NaN and infinities become null.
- The text round trip `JSON.parse(JSON.stringify(..).replace(..))`. It is modelled as a replace-all on every property name and string leaf. A pattern match can start inside a `\u00XX` escape of a control character; that case is not modelled.
- The Promise-based concurrency. Each phase is a fold over the given listing order, which stands for the order in which reads complete. A failed read rejecting the phase is not modelled.
- `Object.keys` lists integer-like names before all others. The model keeps insertion order. Only enumeration order is affected: not a lookup, not the sorted tables.
- A property named `__proto__`, which `Object.assign` would treat as a prototype assignment.
- Strings.Upper: `toUpperCase` beyond ASCII is not modelled. Only `a`-`z` are capitalised, and every other character is kept, which differs for letters such as `é` or `ß`.
- Strings.UpperFirst: inherits the ASCII-only case mapping of Strings.Upper, so the capitalised first character of a name starting with a non-ASCII letter is not the one JavaScript produces.
- Assembly.IndexNamesDistinct: JavaScript indexes a string by UTF-16 code unit, so a string `definitions` holding a character outside the Basic Multilingual Plane (`"😀"`) gives two index names, each holding a lone surrogate. The model gives one name per character and cannot represent lone surrogates.
- The default sort compares UTF-16 code units. `Strings.Below` compares characters, which differs only for characters outside the Basic Multilingual Plane.
- Compose.BuildSwag: an array `components` receives a `schemas` property that is not an element. The model drops it, as serialisation does.
- Compose.TopLevelFrame: YAML anchors and aliases are not modelled; a parsed document is a tree. When `components` is an alias of another node, lib.js:91 adds `schemas` to that node too, so the other occurrence's value changes.
- Compose.BuildSwagInstalls: for the same reason, "every other top-level property is as loaded" holds only when no other property shares the `components` node through a YAML alias.
- Compose.NonObjectDocuments: a paths document that is an array receives a `components` property at lib.js:59-91, which is not an element. The model returns the array unchanged, as serialisation drops that property.
- `factory.genSchema` and `factory.genSpec`. They only write `parseEntities` and `buildSwag` results to files.
- `factory.showObject` and showObject.js. They call a dereferencing library whose code is not part of this model.
- index.js. It is an HTTP server with embedded HTML.
- docs.js file writing and its error exit. The quick-reference text is included as a constant.

=== FILE: assembly.dfy ===
/**
 * The schema assembler (`factory.parseEntities` in lib.js): the common
 * definitions, then every write fragment, then every object fragment, folded
 * into one name-to-schema object by property assignment.
 *
 * Directory listings and file contents are inputs. A listing is a sequence of
 * entries in the order their reads completed (the source reads a phase's
 * files concurrently and merges each as it finishes, so that order is not
 * under its control). An entry's document is what the YAML loader returned:
 * `None` for `undefined` (an empty file), `Some(JNull)` for an explicit null.
 */
module Assembly {
  import opened Wrappers
  import opened Tree
  import opened Strings
  import opened Names
  import opened Refs

  /** One directory entry and its loaded document. */
  datatype Entry = Entry(name: string, doc: Option<Json>)

  /** The ways the assembly aborts: `./entities/common.yml` cannot be read,
      it loads to null or nothing (reading `definitions` of it throws), or
      `./entities/writes` cannot be listed. */
  datatype AssemblyError = CommonUnreadable | CommonEmpty | WritesUnreadable

  /** The common-definitions file, read by its exact name. */
  const CommonFile := "common.yml"

  /** The property of the common file holding its definitions. */
  const DefinitionsKey := "definitions"

  /** What write fragments (one directory down) spell as a common pointer. */
  const WriteCommonPattern := "../common.yml#/definitions"

  /** What object fragments spell as a common pointer. */
  const ObjectCommonPattern := "common.yml#/definitions"

  /** Some key or string leaf of the tree contains `pat`. */
  predicate Mentions(j: Json, pat: string)
    decreases j
  {
    match j
    case JStr(s) => Contains(s, pat)
    case JArr(xs) => exists i :: 0 <= i < |xs| && Mentions(xs[i], pat)
    case JObj(ms) =>
      exists i :: 0 <= i < |ms| && (Contains(ms[i].key, pat) || Mentions(ms[i].value, pat))
    case _ => false
  }

  /** `JSON.parse(JSON.stringify(j).replace(/pat/g, rep))`: the replacement
      applied to every key and every string leaf, then each object re-read
      with the duplicate-name rule of JSON.parse. */
  function Subst(j: Json, pat: string, rep: string): (r: Json)
    requires |pat| > 0
    ensures r.JArr? <==> j.JArr?
    ensures r.JObj? <==> j.JObj?
    ensures j.JArr? ==> |r.items| == |j.items|
    ensures j.JObj? ==> Distinct(r.members)
    decreases j
  {
    match j
    case JStr(s) => JStr(ReplaceAll(s, pat, rep))
    case JArr(xs) => JArr(SubstItems(xs, pat, rep))
    case JObj(ms) => JObj(Dedup(SubstMembers(ms, pat, rep)))
    case _ => j
  }

  function SubstItems(xs: seq<Json>, pat: string, rep: string): (r: seq<Json>)
    requires |pat| > 0
    ensures |r| == |xs|
    decreases xs
  {
    seq(|xs|, i requires 0 <= i < |xs| => Subst(xs[i], pat, rep))
  }

  function SubstMembers(ms: seq<Member>, pat: string, rep: string): (r: seq<Member>)
    requires |pat| > 0
    ensures |r| == |ms|
    ensures forall i :: 0 <= i < |ms| ==> r[i].key == ReplaceAll(ms[i].key, pat, rep)
    decreases ms
  {
    seq(|ms|, i requires 0 <= i < |ms| =>
      Member(ReplaceAll(ms[i].key, pat, rep), Subst(ms[i].value, pat, rep)))
  }

  /** A well-formed tree in which the pattern occurs nowhere survives the
      textual round trip unchanged. */
  lemma {:induction false} SubstUnmentioned(j: Json, pat: string, rep: string)
    requires |pat| > 0
    requires WellFormed(j) && !Mentions(j, pat)
    ensures Subst(j, pat, rep) == j
    decreases j
  {
    match j
    case JArr(xs) =>
      forall i | 0 <= i < |xs|
        ensures SubstItems(xs, pat, rep)[i] == xs[i]
      {
        SubstUnmentioned(xs[i], pat, rep);
      }
    case JObj(ms) =>
      var ms' := SubstMembers(ms, pat, rep);
      forall i | 0 <= i < |ms|
        ensures ms'[i] == ms[i]
      {
        SubstUnmentioned(ms[i].value, pat, rep);
      }
      assert ms' == ms;
      DedupDistinct(ms);
    case _ =>
  }

  /** In a write fragment, a pointer `../common.yml#/definitions<rest>` becomes
      `#/components/schemas<rest>`. */
  lemma WritePatternRewritesCommonRef(rest: string)
    requires !Contains(rest, WriteCommonPattern)
    ensures ReplaceAll(WriteCommonPattern + rest, WriteCommonPattern, SchemasPointer) ==
            SchemasPointer + rest
  {
    assert "" + WriteCommonPattern + rest == WriteCommonPattern + rest;
    ReplaceAllAt("", WriteCommonPattern, SchemasPointer, rest);
  }

  /** In an object fragment, the pattern lacks the leading `../`, so a
      relative `../common.yml#/definitions<rest>` becomes
      `../#/components/schemas<rest>` ... */
  lemma ObjectPatternOnRelativeRef(rest: string)
    requires !Contains(rest, ObjectCommonPattern)
    ensures ReplaceAll("../" + ObjectCommonPattern + rest, ObjectCommonPattern, SchemasPointer) ==
            "../" + SchemasPointer + rest
  {
    var s := "../" + ObjectCommonPattern + rest;
    forall j: nat | j < 3
      ensures !OccursAt(s, ObjectCommonPattern, j)
    {
      assert s[j] != ObjectCommonPattern[0];
      assert j + |ObjectCommonPattern| <= |s| ==> s[j..j + |ObjectCommonPattern|][0] == s[j];
    }
    ReplaceAllAt("../", ObjectCommonPattern, SchemasPointer, rest);
  }

  /** ... which the rewriter then keeps as it is, in either mode. */
  lemma RelativeObjectCommonRefKept(id: string, localToWrites: bool)
    requires '/' !in id
    ensures RewriteRef("../" + SchemaRef(id), localToWrites) == "../" + SchemaRef(id)
  {
    var s := "../" + SchemaRef(id);
    assert s == "../" + SchemaPrefix + id;
    assert OccursAt(s, "/", 2);
    NoWritesSegment("../" + SchemaPrefix, id);
  }

  /** The members of an object (an assembled fragment always is one). */
  function Members(j: Json): seq<Member>
  {
    if j.JObj? then j.members else []
  }

  /** What one fragment adds to the schemas: `{name: doc}` is serialised (a
      property holding `undefined` disappears), the common prefix replaced,
      the result parsed back and rewritten, and its properties assigned. */
  function Fragment(name: string, doc: Option<Json>, pat: string, localToWrites: bool): seq<Member>
    requires |pat| > 0
  {
    match doc
    case None => []
    case Some(d) => Members(FixRefs(Subst(JObj([Member(name, d)]), pat, SchemasPointer), localToWrites))
  }

  /** For a name without `/`, the fragment contributes exactly one schema
      under that name: the document with the common prefix replaced and its
      references rewritten in default mode. */
  lemma FragmentShape(name: string, d: Json, pat: string, localToWrites: bool)
    requires |pat| > 0 && '/' in pat
    requires '/' !in name && name != RefKey
    ensures Fragment(name, Some(d), pat, localToWrites) ==
            [Member(name, FixRefs(Subst(d, pat, SchemasPointer), false))]
  {
    assert !Contains(name, pat) by {
      if Contains(name, pat) {
        ContainsChars(name, pat, '/');
      }
    }
    var m := Member(name, Subst(d, pat, SchemasPointer));
    assert SubstMembers([Member(name, d)], pat, SchemasPointer) == [m];
    assert Distinct([m]);
    DedupDistinct([m]);
    assert FixMembers([m], localToWrites) == [FixMember(m, localToWrites)];
  }

  /** The write phase's contribution of one entry of `./entities/writes`:
      names without ".yml" are ignored, and so is a fragment loading to null. */
  function WriteContribution(e: Entry): seq<Member>
  {
    if Contains(e.name, Yml) && e.doc != Some(JNull) then
      Fragment(WriteName(e.name), e.doc, WriteCommonPattern, true)
    else []
  }

  /** The object phase's contribution of one entry of `./entities`: names
      without ".yml" and the common file itself are ignored; a fragment
      loading to null is kept. */
  function ObjectContribution(e: Entry): seq<Member>
  {
    if Contains(e.name, Yml) && e.name != CommonFile then
      Fragment(ObjectName(e.name), e.doc, ObjectCommonPattern, false)
    else []
  }

  /** The contributions of a listing, in order. */
  function Collect(es: seq<Entry>, contribution: Entry -> seq<Member>): seq<Member>
  {
    if |es| == 0 then [] else contribution(es[0]) + Collect(es[1..], contribution)
  }

  /** The properties `Object.assign` copies from the value of `definitions`:
      an object's own properties; an array's elements and a string's
      characters under their decimal indices; nothing from anything else. */
  function OwnProperties(v: Json): seq<Member>
  {
    match v
    case JObj(ms) => ms
    case JArr(xs) => seq(|xs|, i requires 0 <= i < |xs| => Member(DecimalString(i), xs[i]))
    case JStr(s) => seq(|s|, i requires 0 <= i < |s| => Member(DecimalString(i), JStr([s[i]])))
    case _ => []
  }

  /** The decimal indices under which `Object.assign` copies an array's
      elements or a string's characters are distinct names, one per element. */
  lemma IndexNamesDistinct(v: Json)
    requires v.JArr? || v.JStr?
    ensures |OwnProperties(v)| == (if v.JArr? then |v.items| else |v.s|)
    ensures Distinct(OwnProperties(v))
  {
    var r := OwnProperties(v);
    forall i, j | 0 <= i < j < |r|
      ensures Keys(r)[i] != Keys(r)[j]
    {
      KeysAt(r, i);
      KeysAt(r, j);
      DecimalStringInjective(i, j);
    }
  }

  /** The common phase's contribution: the definitions, merged as they are. */
  function CommonContribution(doc: Json): seq<Member>
  {
    match doc
    case JObj(ms) =>
      (match Get(ms, DefinitionsKey)
       case Some(v) => OwnProperties(v)
       case None => [])
    case _ => []
  }

  /** The first entry of a listing with the given name. */
  function Find(es: seq<Entry>, name: string): (r: Option<Entry>)
    ensures r.Some? ==> r.value in es && r.value.name == name
    ensures r.None? ==> forall e :: e in es ==> e.name != name
  {
    if |es| == 0 then None
    else if es[0].name == name then Some(es[0])
    else Find(es[1..], name)
  }

  /** `factory.parseEntities()`: `entities` lists `./entities` (None when it
      does not exist), `writes` lists `./entities/writes`. */
  function ParseEntities(entities: Option<seq<Entry>>, writes: Option<seq<Entry>>): (r: Result<seq<Member>, AssemblyError>)
    ensures entities.None? ==> r == Failure(CommonUnreadable)
    ensures r.Success? ==> writes.Some? && Find(entities.value, CommonFile).Some?
    ensures r == Failure(WritesUnreadable) ==> writes.None?
    ensures r.Success? ==> Distinct(r.value)
  {
    if entities.None? then Failure(CommonUnreadable)
    else match Find(entities.value, CommonFile)
      case None => Failure(CommonUnreadable)
      case Some(c) =>
        if c.doc.None? || c.doc.value == JNull then Failure(CommonEmpty)
        else if writes.None? then Failure(WritesUnreadable)
        else
          var common := PutAll([], CommonContribution(c.doc.value));
          var withWrites := PutAll(common, Collect(writes.value, WriteContribution));
          Success(PutAll(withWrites, Collect(entities.value, ObjectContribution)))
  }

  /** A directory listing: entry names are distinct and never contain `/`. */
  predicate Listing(es: seq<Entry>)
  {
    (forall i :: 0 <= i < |es| ==> '/' !in es[i].name) &&
    (forall i, j :: 0 <= i < j < |es| ==> es[i].name != es[j].name)
  }

  /** In a listing, the entry of a name is the one found under it. */
  lemma {:induction false} FindListed(es: seq<Entry>, e: Entry)
    requires Listing(es) && e in es
    ensures Find(es, e.name) == Some(e)
    decreases |es|
  {
    if es[0] != e {
      assert es[0].name != e.name by {
        var i :| 0 <= i < |es| && es[i] == e;
        assert i > 0;
      }
      assert Listing(es[1..]) by {
        forall i, j | 0 <= i < j < |es[1..]|
          ensures es[1..][i].name != es[1..][j].name
        {
          assert es[1..][i] == es[i + 1] && es[1..][j] == es[j + 1];
        }
      }
      FindListed(es[1..], e);
    }
  }

  /** The schema a write entry registers, if it registers one. */
  predicate WriteRegisters(e: Entry, x: string)
  {
    Contains(e.name, Yml) && e.doc.Some? && e.doc.value != JNull && x == WriteName(e.name)
  }

  /** The schema an object entry registers, if it registers one. */
  predicate ObjectRegisters(e: Entry, x: string)
  {
    Contains(e.name, Yml) && e.name != CommonFile && e.doc.Some? && x == ObjectName(e.name)
  }

  /** A write entry contributes nothing, or one schema under its write name:
      its document with common pointers redirected and references rewritten.
      Empty and null documents contribute nothing. */
  lemma WriteContributionShape(e: Entry)
    requires '/' !in e.name
    ensures WriteContribution(e) ==
            if WriteRegisters(e, WriteName(e.name))
            then [Member(WriteName(e.name), FixRefs(Subst(e.doc.value, WriteCommonPattern, SchemasPointer), false))]
            else []
  {
    if WriteRegisters(e, WriteName(e.name)) {
      assert WriteCommonPattern[2] == '/';
      FragmentShape(WriteName(e.name), e.doc.value, WriteCommonPattern, true);
    }
  }

  /** An object entry contributes nothing, or one schema under its object
      name. An empty document contributes nothing, a null one is kept. */
  lemma ObjectContributionShape(e: Entry)
    requires '/' !in e.name
    ensures ObjectContribution(e) ==
            if ObjectRegisters(e, ObjectName(e.name))
            then [Member(ObjectName(e.name), FixRefs(Subst(e.doc.value, ObjectCommonPattern, SchemasPointer), false))]
            else []
    ensures ObjectRegisters(e, ObjectName(e.name)) && e.doc.value == JNull ==>
            ObjectContribution(e) == [Member(ObjectName(e.name), JNull)]
  {
    if ObjectRegisters(e, ObjectName(e.name)) {
      assert ObjectCommonPattern[11] == '/';
      FragmentShape(ObjectName(e.name), e.doc.value, ObjectCommonPattern, false);
    }
  }

  /** A member comes out of a listing exactly when some entry contributes it. */
  lemma {:induction false} CollectMembers(es: seq<Entry>, contribution: Entry -> seq<Member>, m: Member)
    ensures m in Collect(es, contribution) <==> exists e :: e in es && m in contribution(e)
    decreases |es|
  {
    if |es| > 0 {
      CollectMembers(es[1..], contribution, m);
      assert forall e :: e in es <==> e == es[0] || e in es[1..];
    }
  }

  /** The names a write listing registers. */
  lemma WriteNames(es: seq<Entry>, x: string)
    requires Listing(es)
    ensures x in Keys(Collect(es, WriteContribution)) <==> exists e :: e in es && WriteRegisters(e, x)
  {
    InKeys(Collect(es, WriteContribution), x);
    forall m | m in Collect(es, WriteContribution) && m.key == x
      ensures exists e :: e in es && WriteRegisters(e, x)
    {
      CollectMembers(es, WriteContribution, m);
      var e :| e in es && m in WriteContribution(e);
      WriteContributionShape(e);
    }
    forall e | e in es && WriteRegisters(e, x)
      ensures x in Keys(Collect(es, WriteContribution))
    {
      WriteContributionShape(e);
      var m := WriteContribution(e)[0];
      CollectMembers(es, WriteContribution, m);
    }
  }

  /** The names an object listing registers. */
  lemma ObjectNames(es: seq<Entry>, x: string)
    requires Listing(es)
    ensures x in Keys(Collect(es, ObjectContribution)) <==> exists e :: e in es && ObjectRegisters(e, x)
  {
    InKeys(Collect(es, ObjectContribution), x);
    forall m | m in Collect(es, ObjectContribution) && m.key == x
      ensures exists e :: e in es && ObjectRegisters(e, x)
    {
      CollectMembers(es, ObjectContribution, m);
      var e :| e in es && m in ObjectContribution(e);
      ObjectContributionShape(e);
    }
    forall e | e in es && ObjectRegisters(e, x)
      ensures x in Keys(Collect(es, ObjectContribution))
    {
      ObjectContributionShape(e);
      var m := ObjectContribution(e)[0];
      CollectMembers(es, ObjectContribution, m);
    }
  }

  /** The three outcomes of the assembly for directory listings: no common
      file, a common file that loads to null or nothing, no writes
      directory, or success. */
  lemma AssemblyOutcome(entities: seq<Entry>, writes: Option<seq<Entry>>)
    requires Listing(entities)
    ensures ParseEntities(Some(entities), writes) == Failure(CommonUnreadable) <==>
            forall e :: e in entities ==> e.name != CommonFile
    ensures ParseEntities(Some(entities), writes) == Failure(CommonEmpty) <==>
            (Entry(CommonFile, None) in entities || Entry(CommonFile, Some(JNull)) in entities)
    ensures ParseEntities(Some(entities), writes).Success? <==>
            writes.Some? && exists c :: Entry(CommonFile, Some(c)) in entities && c != JNull
  {
    var f := Find(entities, CommonFile);
    if f.Some? {
      var e := f.value;
      forall e' | e' in entities && e'.name == CommonFile
        ensures e' == e
      {
        FindListed(entities, e');
      }
      if e.doc.Some? && e.doc.value != JNull && writes.Some? {
        assert Entry(CommonFile, Some(e.doc.value)) in entities;
      }
    }
  }

  /** A successful assembly is the common definitions, then the write
      contributions, then the object contributions, assigned in turn. */
  lemma Assembled(entities: seq<Entry>, writes: seq<Entry>, common: Json)
    requires Listing(entities)
    requires Entry(CommonFile, Some(common)) in entities && common != JNull
    ensures ParseEntities(Some(entities), Some(writes)) ==
            Success(PutAll(PutAll(PutAll([], CommonContribution(common)), Collect(writes, WriteContribution)),
                           Collect(entities, ObjectContribution)))
  {
    FindListed(entities, Entry(CommonFile, Some(common)));
  }

  /** The assembled schemas are the three phases' contributions assigned in
      order: an object fragment overrides a write fragment, which overrides a
      common definition, and within a phase the entry read last wins. */
  lemma AssembledValue(entities: seq<Entry>, writes: seq<Entry>, common: Json, k: string)
    requires Listing(entities)
    requires Entry(CommonFile, Some(common)) in entities && common != JNull
    ensures ParseEntities(Some(entities), Some(writes)).Success?
    ensures Get(ParseEntities(Some(entities), Some(writes)).value, k) ==
            var fromObjects := LastValue(Collect(entities, ObjectContribution), k);
            var fromWrites := LastValue(Collect(writes, WriteContribution), k);
            if fromObjects.Some? then fromObjects
            else if fromWrites.Some? then fromWrites
            else LastValue(CommonContribution(common), k)
  {
    Assembled(entities, writes, common);
    var c := PutAll([], CommonContribution(common));
    var w := Collect(writes, WriteContribution);
    PutAllLastWins([], CommonContribution(common), k);
    PutAllLastWins(c, w, k);
    PutAllLastWins(PutAll(c, w), Collect(entities, ObjectContribution), k);
  }

  /** An object of common definitions is merged as it is: its own references
      are neither redirected nor rewritten. */
  lemma CommonDefinitionsVerbatim(common: Json, defs: seq<Member>)
    requires common.JObj? && Get(common.members, DefinitionsKey) == Some(JObj(defs))
    requires Distinct(defs)
    ensures PutAll([], CommonContribution(common)) == defs
  {
    DedupDistinct(defs);
  }

  /** The names of the assembled schemas: the common definitions, the write
      name of every non-empty, non-null write fragment, and the object name of
      every non-empty object fragment. */
  lemma AssembledNames(entities: seq<Entry>, writes: seq<Entry>, common: Json, x: string)
    requires Listing(entities) && Listing(writes)
    requires Entry(CommonFile, Some(common)) in entities && common != JNull
    ensures ParseEntities(Some(entities), Some(writes)).Success?
    ensures x in Keys(ParseEntities(Some(entities), Some(writes)).value) <==>
            x in Keys(CommonContribution(common)) ||
            (exists e :: e in writes && WriteRegisters(e, x)) ||
            (exists e :: e in entities && ObjectRegisters(e, x))
  {
    Assembled(entities, writes, common);
    WriteNames(writes, x);
    ObjectNames(entities, x);
  }

  /** The order in which a phase's reads complete does not matter as long as
      no two of its files map to the same schema name. */
  lemma ListingOrderIrrelevant(entities: seq<Entry>, entities': seq<Entry>,
                               writes: seq<Entry>, writes': seq<Entry>, common: Json, k: string)
    requires Listing(entities) && Listing(entities')
    requires Entry(CommonFile, Some(common)) in entities && common != JNull
    requires multiset(entities) == multiset(entities') && multiset(writes) == multiset(writes')
    requires Distinct(Collect(writes, WriteContribution)) && Distinct(Collect(writes', WriteContribution))
    requires Distinct(Collect(entities, ObjectContribution)) && Distinct(Collect(entities', ObjectContribution))
    ensures ParseEntities(Some(entities), Some(writes)).Success?
    ensures ParseEntities(Some(entities'), Some(writes')).Success?
    ensures Get(ParseEntities(Some(entities), Some(writes)).value, k) ==
            Get(ParseEntities(Some(entities'), Some(writes')).value, k)
  {
    var ce := Entry(CommonFile, Some(common));
    assert ce in multiset(entities');
    Assembled(entities, writes, common);
    Assembled(entities', writes', common);
    var c := PutAll([], CommonContribution(common));
    var w, w' := Collect(writes, WriteContribution), Collect(writes', WriteContribution);
    var o, o' := Collect(entities, ObjectContribution), Collect(entities', ObjectContribution);
    forall m
      ensures m in w <==> m in w'
    {
      CollectMembers(writes, WriteContribution, m);
      CollectMembers(writes', WriteContribution, m);
      assert forall e :: e in writes <==> e in multiset(writes');
    }
    forall m
      ensures m in o <==> m in o'
    {
      CollectMembers(entities, ObjectContribution, m);
      CollectMembers(entities', ObjectContribution, m);
      assert forall e :: e in entities <==> e in multiset(entities');
    }
    LastValueSameMembers(w, w', k);
    LastValueSameMembers(o, o', k);
    PutAllLastWins(c, w, k);
    PutAllLastWins(c, w', k);
    PutAllLastWins(PutAll(c, w), o, k);
    PutAllLastWins(PutAll(c, w'), o', k);
  }

  /** A reference into the writes directory, once assembled, names a schema
      that exists: the write schema of the referenced file. */
  lemma WriteRefResolves(entities: seq<Entry>, writes: seq<Entry>, common: Json,
                         e: Entry, dir: string, localToWrites: bool)
    requires Listing(entities) && Listing(writes)
    requires Entry(CommonFile, Some(common)) in entities && common != JNull
    requires e in writes && WriteRegisters(e, WriteName(e.name))
    ensures ParseEntities(Some(entities), Some(writes)).Success?
    ensures RewriteRef(dir + "writes/" + e.name, localToWrites) == SchemaRef(WriteName(e.name))
    ensures WriteName(e.name) in Keys(ParseEntities(Some(entities), Some(writes)).value)
  {
    WritesRefTargetsWriteName(dir, e.name, localToWrites);
    AssembledNames(entities, writes, common, WriteName(e.name));
  }

  /** A bare file-name reference, rewritten in default mode, names the object
      schema of that file, which exists when the file is a non-empty entity. */
  lemma ObjectRefResolves(entities: seq<Entry>, writes: seq<Entry>, common: Json, e: Entry)
    requires Listing(entities) && Listing(writes)
    requires Entry(CommonFile, Some(common)) in entities && common != JNull
    requires e in entities && ObjectRegisters(e, ObjectName(e.name))
    ensures ParseEntities(Some(entities), Some(writes)).Success?
    ensures RewriteRef(e.name, false) == SchemaRef(ObjectName(e.name))
    ensures ObjectName(e.name) in Keys(ParseEntities(Some(entities), Some(writes)).value)
  {
    BareRefTargets(e.name, false);
    AssembledNames(entities, writes, common, ObjectName(e.name));
  }
}

=== FILE: compose.dfy ===
/**
 * The specification builder (`factory.buildSwag` in lib.js): the paths
 * document with the assembled schemas installed as `components.schemas`,
 * and a default `components` block (four security schemes and an empty
 * schema map) put in first when the document has none.
 *
 * The builder runs in sloppy mode: assigning a property of a string, number
 * or boolean is silently ignored, and reading one yields `undefined`; a
 * property assigned to an array is not one of its elements and does not
 * survive serialisation, so an array document is returned as it was.
 */
module Compose {
  import opened Wrappers
  import opened Tree
  import opened Assembly

  /** How building the specification aborts: the paths file cannot be read,
      the assembly fails, or the document has no properties to assign
      (a TypeError). */
  datatype BuildError = PathsUnreadable | AssemblyFailed(cause: AssemblyError) | NotAnObject

  const ComponentsKey := "components"
  const SchemasKey := "schemas"

  /** JavaScript truthiness of a parsed value. */
  predicate Truthy(j: Json)
  {
    match j
    case JNull => false
    case JBool(b) => b
    case JNum(n) => n != 0.0
    case JStr(s) => |s| > 0
    case _ => true
  }

  /** The `components` block installed when the document lacks one. */
  const DefaultComponents: Json := JObj([
    Member("securitySchemes", JObj([
      Member("bearer", JObj([
        Member("type", JStr("http")),
        Member("scheme", JStr("bearer")),
        Member("description", JStr("Bearer based tokens, simply enter the token (prefixing with \"bearer\" is not required)."))])),
      Member("basicAuth", JObj([
        Member("type", JStr("http")),
        Member("scheme", JStr("basic"))])),
      Member("openId", JObj([
        Member("type", JStr("openIdConnect")),
        Member("openIdConnectUrl", JStr("https://example.com/.well-known/openid-configuration"))])),
      Member("OAuth2", JObj([
        Member("type", JStr("oauth2")),
        Member("flows", JObj([
          Member("authorizationCode", JObj([
            Member("authorizationUrl", JStr("https://example.com/oauth/authorize")),
            Member("tokenUrl", JStr("https://example.com/oauth/token")),
            Member("scopes", JObj([
              Member("read", JStr("Grants read access")),
              Member("write", JStr("Grants write access")),
              Member("admin", JStr("Grants access to admin operations"))]))]))]))]))])),
    Member(SchemasKey, JObj([]))])

  /** `components` after the default step: kept when truthy, else the
      default block. */
  function Components(ms: seq<Member>): Json
  {
    match Get(ms, ComponentsKey)
    case Some(c) => if Truthy(c) then c else DefaultComponents
    case None => DefaultComponents
  }

  /** The two assignments on an object document. */
  function InstallInObject(ms: seq<Member>, schemas: seq<Member>): (r: seq<Member>)
    ensures Get(r, ComponentsKey).Some?
  {
    var withComponents := if Get(ms, ComponentsKey).Some? && Truthy(Get(ms, ComponentsKey).value) then ms
                          else Put(ms, ComponentsKey, DefaultComponents);
    var c := Components(ms);
    if c.JObj? then Put(withComponents, ComponentsKey, JObj(Put(c.members, SchemasKey, JObj(schemas))))
    else withComponents
  }

  /** The two assignments on whatever the paths file loaded to. */
  function Install(doc: Json, schemas: seq<Member>): Result<Json, BuildError>
  {
    match doc
    case JObj(ms) => Success(JObj(InstallInObject(ms, schemas)))
    case JArr(_) => Success(doc)
    case _ => Failure(NotAnObject)
  }

  /** `factory.buildSwag()`: `paths` is the result of reading and loading
      `./openApiPaths.yml` (None when it cannot be read; Some(None) when it
      loads to nothing); the listings are those of the assembly. The paths
      file is read before the assembly runs, and the document is touched
      only after it succeeds. */
  function BuildSwag(paths: Option<Option<Json>>, entities: Option<seq<Entry>>,
                     writes: Option<seq<Entry>>): (r: Result<Json, BuildError>)
    ensures paths.None? ==> r == Failure(PathsUnreadable)
    ensures paths.Some? && ParseEntities(entities, writes).Failure? ==>
            r == Failure(AssemblyFailed(ParseEntities(entities, writes).error))
    ensures paths == Some(None) && ParseEntities(entities, writes).Success? ==> r == Failure(NotAnObject)
  {
    if paths.None? then Failure(PathsUnreadable)
    else match ParseEntities(entities, writes)
      case Failure(e) => Failure(AssemblyFailed(e))
      case Success(schemas) =>
        match paths.value
        case None => Failure(NotAnObject)
        case Some(doc) => Install(doc, schemas)
  }

  /** A document whose `components` is absent or falsy, or an object, ends up
      with the assembled schemas as `components.schemas`. */
  lemma SchemasInstalled(ms: seq<Member>, schemas: seq<Member>)
    requires Get(ms, ComponentsKey).None? || !Truthy(Get(ms, ComponentsKey).value) ||
             Get(ms, ComponentsKey).value.JObj?
    ensures Get(InstallInObject(ms, schemas), ComponentsKey).value.JObj?
    ensures Get(Get(InstallInObject(ms, schemas), ComponentsKey).value.members, SchemasKey) ==
            Some(JObj(schemas))
  {
  }

  /** Only `components` is assigned: every other top-level property keeps its
      value, the names keep their order, and `components` is appended when it
      was absent. */
  lemma TopLevelFrame(ms: seq<Member>, schemas: seq<Member>, k: string)
    ensures k != ComponentsKey ==> Get(InstallInObject(ms, schemas), k) == Get(ms, k)
    ensures ComponentsKey in Keys(ms) ==> Keys(InstallInObject(ms, schemas)) == Keys(ms)
    ensures ComponentsKey !in Keys(ms) ==> Keys(InstallInObject(ms, schemas)) == Keys(ms) + [ComponentsKey]
  {
    var c := Components(ms);
    var w := if Get(ms, ComponentsKey).Some? && Truthy(Get(ms, ComponentsKey).value) then ms
             else Put(ms, ComponentsKey, DefaultComponents);
    PutKeys(ms, ComponentsKey, DefaultComponents);
    var v := if c.JObj? then JObj(Put(c.members, SchemasKey, JObj(schemas))) else c;
    if c.JObj? {
      PutKeys(w, ComponentsKey, v);
    }
    if k != ComponentsKey {
      PutFrame(ms, ComponentsKey, DefaultComponents, k);
      if c.JObj? {
        PutFrame(w, ComponentsKey, v, k);
      }
    }
  }

  /** An existing, truthy object `components` keeps everything but
      `schemas`, in particular its security schemes; the defaults are used
      only when `components` is absent or falsy. */
  lemma ExistingComponentsKept(ms: seq<Member>, schemas: seq<Member>, k: string)
    requires Get(ms, ComponentsKey).Some? && Get(ms, ComponentsKey).value.JObj?
    requires k != SchemasKey
    ensures Get(Get(InstallInObject(ms, schemas), ComponentsKey).value.members, k) ==
            Get(Get(ms, ComponentsKey).value.members, k)
  {
    PutFrame(Get(ms, ComponentsKey).value.members, SchemasKey, JObj(schemas), k);
  }

  /** Absent or falsy `components`: the result is the default block with the
      assembled schemas in place of its empty schema map. */
  lemma DefaultComponentsUsed(ms: seq<Member>, schemas: seq<Member>)
    requires Get(ms, ComponentsKey).None? || !Truthy(Get(ms, ComponentsKey).value)
    ensures Get(InstallInObject(ms, schemas), ComponentsKey) ==
            Some(JObj(Put(DefaultComponents.members, SchemasKey, JObj(schemas))))
  {
  }

  /** A truthy `components` that is not an object (a string, a number, true,
      an array) silently swallows the assignment: the document is unchanged. */
  lemma NonObjectComponentsIgnored(ms: seq<Member>, schemas: seq<Member>)
    requires Get(ms, ComponentsKey).Some? && Truthy(Get(ms, ComponentsKey).value)
    requires !Get(ms, ComponentsKey).value.JObj?
    ensures InstallInObject(ms, schemas) == ms
  {
  }

  /** Building again from the built document with the same schemas changes
      nothing. */
  lemma InstallIdempotent(doc: Json, schemas: seq<Member>)
    requires Install(doc, schemas).Success?
    ensures Install(Install(doc, schemas).value, schemas) == Install(doc, schemas)
  {
    if doc.JObj? {
      var ms := doc.members;
      var once := InstallInObject(ms, schemas);
      var c := Get(once, ComponentsKey).value;
      assert Truthy(c) by {
        if !Components(ms).JObj? {
          assert c == Get(ms, ComponentsKey).value;
        }
      }
      if c.JObj? {
        SchemasInstalled(ms, schemas);
        PutPresent(c.members, SchemasKey, JObj(schemas));
        PutPresent(once, ComponentsKey, c);
      }
    }
  }

  /** Documents that are not objects: null, nothing and primitives fail with
      a TypeError, an array comes back unchanged. */
  lemma NonObjectDocuments(doc: Json, schemas: seq<Member>)
    requires !doc.JObj?
    ensures doc.JArr? ==> Install(doc, schemas) == Success(doc)
    ensures !doc.JArr? ==> Install(doc, schemas) == Failure(NotAnObject)
  {
  }

  /** End to end: with a common file and a writes directory, an object paths
      document whose `components` is absent, falsy or an object comes back
      with the assembled schemas as `components.schemas` and every other
      top-level property as it was. */
  lemma BuildSwagInstalls(ms: seq<Member>, entities: seq<Entry>, writes: seq<Entry>, common: Json, k: string)
    requires Listing(entities)
    requires Entry(CommonFile, Some(common)) in entities && common != JNull
    requires Get(ms, ComponentsKey).None? || !Truthy(Get(ms, ComponentsKey).value) ||
             Get(ms, ComponentsKey).value.JObj?
    ensures ParseEntities(Some(entities), Some(writes)).Success?
    ensures BuildSwag(Some(Some(JObj(ms))), Some(entities), Some(writes)).Success?
    ensures var doc := BuildSwag(Some(Some(JObj(ms))), Some(entities), Some(writes)).value;
            doc.JObj? &&
            Get(Get(doc.members, ComponentsKey).value.members, SchemasKey) ==
              Some(JObj(ParseEntities(Some(entities), Some(writes)).value)) &&
            (k != ComponentsKey ==> Get(doc.members, k) == Get(ms, k))
  {
    BuildSwagOnObject(ms, entities, writes, common);
    var schemas := ParseEntities(Some(entities), Some(writes)).value;
    SchemasInstalled(ms, schemas);
    TopLevelFrame(ms, schemas, k);
  }

  /** With a common file and a writes directory, an object paths document
      goes through the two assignments with the assembled schemas. */
  lemma BuildSwagOnObject(ms: seq<Member>, entities: seq<Entry>, writes: seq<Entry>, common: Json)
    requires Listing(entities)
    requires Entry(CommonFile, Some(common)) in entities && common != JNull
    ensures ParseEntities(Some(entities), Some(writes)).Success?
    ensures BuildSwag(Some(Some(JObj(ms))), Some(entities), Some(writes)) ==
            Success(JObj(InstallInObject(ms, ParseEntities(Some(entities), Some(writes)).value)))
  {
    Assembled(entities, writes, common);
    var r := ParseEntities(Some(entities), Some(writes));
    assert BuildSwag(Some(Some(JObj(ms))), Some(entities), Some(writes)) == Install(JObj(ms), r.value);
  }
}

=== FILE: docs.dfy ===
/**
 * The API-reference renderer (docs.js): the assembled schema names split
 * into write, full-object and common schemas, each group rendered as a
 * Markdown table sorted in JavaScript's default string order, between a
 * fixed header and a fixed quick-reference section.
 */
module Docs {
  import opened Strings
  import opened Names

  /** The three groups of schema names. */
  datatype Kind = WriteSchema | ObjectSchema | CommonSchema

  /** The group of a schema name: a "write" prefix first, then an "Object"
      suffix, then everything else. */
  function Classify(key: string): (c: Kind)
    ensures c == WriteSchema <==> StartsWith(key, "write")
    ensures c == ObjectSchema <==> !StartsWith(key, "write") && EndsWith(key, "Object")
  {
    if StartsWith(key, "write") then WriteSchema
    else if EndsWith(key, "Object") then ObjectSchema
    else CommonSchema
  }

  /** The names of one group, in the order given. */
  function Bucket(keys: seq<string>, kind: Kind): (r: seq<string>)
    ensures forall x :: x in r <==> x in keys && Classify(x) == kind
    ensures |r| <= |keys|
  {
    if |keys| == 0 then []
    else
      var rest := Bucket(keys[1..], kind);
      assert forall x :: x in keys <==> x == keys[0] || x in keys[1..];
      if Classify(keys[0]) == kind then [keys[0]] + rest else rest
  }

  /** A group of a longer sequence: the first name, if it belongs, then the
      group of the rest. */
  lemma BucketStep(keys: seq<string>, kind: Kind)
    requires |keys| > 0
    ensures multiset(Bucket(keys, kind)) ==
            (if Classify(keys[0]) == kind then multiset{keys[0]} else multiset{}) +
            multiset(Bucket(keys[1..], kind))
  {
    if Classify(keys[0]) == kind {
      assert Bucket(keys, kind) == [keys[0]] + Bucket(keys[1..], kind);
    }
  }

  /** Every name lands in exactly one group, as often as it occurs. */
  lemma {:induction false} BucketsPartition(keys: seq<string>)
    ensures multiset(Bucket(keys, WriteSchema)) + multiset(Bucket(keys, ObjectSchema)) +
            multiset(Bucket(keys, CommonSchema)) == multiset(keys)
    decreases |keys|
  {
    if |keys| > 0 {
      BucketsPartition(keys[1..]);
      BucketStep(keys, WriteSchema);
      BucketStep(keys, ObjectSchema);
      BucketStep(keys, CommonSchema);
      assert multiset(keys) == multiset{keys[0]} + multiset(keys[1..]) by {
        assert keys == [keys[0]] + keys[1..];
      }
    }
  }

  /** How often a name occurs in its group: as often as in all names. */
  lemma {:induction false} BucketCount(keys: seq<string>, kind: Kind, x: string)
    ensures multiset(Bucket(keys, kind))[x] == if Classify(x) == kind then multiset(keys)[x] else 0
    decreases |keys|
  {
    if |keys| > 0 {
      BucketCount(keys[1..], kind, x);
      BucketStep(keys, kind);
      assert multiset(keys) == multiset{keys[0]} + multiset(keys[1..]) by {
        assert keys == [keys[0]] + keys[1..];
      }
    }
  }

  /** A group depends only on the names, not on their order. */
  lemma BucketPermutation(keys: seq<string>, keys': seq<string>, kind: Kind)
    requires multiset(keys) == multiset(keys')
    ensures multiset(Bucket(keys, kind)) == multiset(Bucket(keys', kind))
  {
    forall x
      ensures multiset(Bucket(keys, kind))[x] == multiset(Bucket(keys', kind))[x]
    {
      BucketCount(keys, kind, x);
      BucketCount(keys', kind, x);
    }
  }

  /** The write name of any file is listed among the write schemas. */
  lemma WriteNamesListedAsWrite(file: string)
    ensures Classify(WriteName(file)) == WriteSchema
  {
  }

  /** The object name of `stem.yml` is listed among the full-object schemas,
      unless the stem itself starts with "write". */
  lemma ObjectNamesListedAsObject(stem: string)
    requires !Contains(stem, Yml)
    ensures Classify(ObjectName(stem + Yml)) ==
            if StartsWith(stem, "write") then WriteSchema else ObjectSchema
  {
    ObjectNameOfFile(stem);
    var k := stem + "Object";
    if |stem| >= 5 {
      assert k[..5] == stem[..5];
    } else {
      assert !StartsWith(k, "write") by {
        if |k| >= 5 {
          assert k[|stem|] == 'O';
          assert "write"[|stem|] != 'O';
        }
      }
    }
  }

  /** Sorted in ascending default string order. */
  predicate Sorted(s: seq<string>)
  {
    forall i, j :: 0 <= i < j < |s| ==> Below(s[i], s[j])
  }

  lemma {:induction false} BelowReflexive(a: string)
    ensures Below(a, a)
    decreases |a|
  {
    if |a| > 0 {
      BelowReflexive(a[1..]);
    }
  }

  /** One name put into its place in a sorted sequence. */
  function Insert(x: string, s: seq<string>): (r: seq<string>)
    ensures multiset(r) == multiset(s) + multiset{x}
    ensures |r| == |s| + 1
  {
    if |s| == 0 then [x]
    else if Below(x, s[0]) then [x] + s
    else
      assert s == [s[0]] + s[1..];
      [s[0]] + Insert(x, s[1..])
  }

  lemma {:induction false} InsertSorted(x: string, s: seq<string>)
    requires Sorted(s)
    ensures Sorted(Insert(x, s))
    decreases |s|
  {
    if |s| > 0 {
      if Below(x, s[0]) {
        InsertFront(x, s);
      } else {
        InsertSorted(x, s[1..]);
        BelowTotal(x, s[0]);
        InsertBehind(x, s);
      }
    }
  }

  /** A name below the first goes in front. */
  lemma InsertFront(x: string, s: seq<string>)
    requires Sorted(s) && |s| > 0 && Below(x, s[0])
    ensures Sorted(Insert(x, s))
  {
    var r := [x] + s;
    forall j | 1 <= j < |r|
      ensures Below(r[0], r[j])
    {
      if j > 1 {
        BelowTransitive(x, s[0], s[j - 1]);
      }
    }
  }

  /** A name above the first goes into the rest, behind the first. */
  lemma InsertBehind(x: string, s: seq<string>)
    requires Sorted(s) && |s| > 0 && !Below(x, s[0]) && Below(s[0], x)
    requires Sorted(Insert(x, s[1..]))
    ensures Sorted(Insert(x, s))
  {
    var rest := Insert(x, s[1..]);
    forall j | 0 <= j < |rest|
      ensures Below(s[0], rest[j])
    {
      assert rest[j] in multiset(s[1..]) + multiset{x};
      if rest[j] != x {
        FirstIsLeast(s, rest[j]);
      }
    }
    ConsSorted(s[0], rest);
  }

  /** The first name of a sorted sequence is below every later one. */
  lemma FirstIsLeast(s: seq<string>, y: string)
    requires Sorted(s) && |s| > 0 && y in s[1..]
    ensures Below(s[0], y)
  {
    var i :| 0 <= i < |s[1..]| && s[1..][i] == y;
    assert s[i + 1] == y;
  }

  /** A name below everything in a sorted sequence can go in front. */
  lemma ConsSorted(h: string, t: seq<string>)
    requires Sorted(t) && forall j :: 0 <= j < |t| ==> Below(h, t[j])
    ensures Sorted([h] + t)
  {
    var r := [h] + t;
    forall i, j | 0 <= i < j < |r|
      ensures Below(r[i], r[j])
    {
      assert r[j] == t[j - 1];
      if i > 0 {
        assert r[i] == t[i - 1];
      }
    }
  }

  /** `keys.sort()`: the names in ascending default string order. */
  function Sort(s: seq<string>): (r: seq<string>)
    ensures multiset(r) == multiset(s)
    ensures Sorted(r)
  {
    if |s| == 0 then []
    else
      assert s == [s[0]] + s[1..];
      InsertSorted(s[0], Sort(s[1..]));
      Insert(s[0], Sort(s[1..]))
  }

  /** Two sorted arrangements of the same names are the same sequence, so the
      sorted table does not depend on the sorting algorithm or on the order in
      which the names arrive. */
  lemma {:induction false} SortedUnique(a: seq<string>, b: seq<string>)
    requires Sorted(a) && Sorted(b) && multiset(a) == multiset(b)
    ensures a == b
    decreases |a|
  {
    if |a| > 0 {
      assert |b| == |multiset(b)| == |multiset(a)| == |a|;
      assert a[0] in multiset(b) && b[0] in multiset(a);
      var i :| 0 <= i < |b| && b[i] == a[0];
      var j :| 0 <= j < |a| && a[j] == b[0];
      BelowReflexive(a[0]);
      BelowReflexive(b[0]);
      assert Below(b[0], a[0]) && Below(a[0], b[0]);
      BelowAntisymmetric(a[0], b[0]);
      assert multiset(a) == multiset{a[0]} + multiset(a[1..]) by {
        assert a == [a[0]] + a[1..];
      }
      assert multiset(b) == multiset{b[0]} + multiset(b[1..]) by {
        assert b == [b[0]] + b[1..];
      }
      assert multiset(a[1..]) == multiset(a) - multiset{a[0]};
      assert multiset(b[1..]) == multiset(b) - multiset{b[0]};
      SortedUnique(a[1..], b[1..]);
    }
  }

  /** The row of one schema name, without its line break. */
  function RowLine(key: string): (r: string)
    ensures '\n' !in key ==> '\n' !in r
  {
    "| " + key + " | " + SchemaRef(key) + " |"
  }

  /** The rows of a table, one line each. */
  function Rows(keys: seq<string>): string
  {
    if |keys| == 0 then "" else RowLine(keys[0]) + "\n" + Rows(keys[1..])
  }

  /** The row lines of a sequence of names. */
  function RowLines(keys: seq<string>): (r: seq<string>)
    ensures |r| == |keys|
  {
    seq(|keys|, i requires 0 <= i < |keys| => RowLine(keys[i]))
  }

  /** Splitting before a separator-free part. */
  lemma {:induction false} SplitFirst(a: string, sep: char, t: string)
    requires sep !in a
    ensures Split(a + [sep] + t, sep) == [a] + Split(t, sep)
    decreases |a|
  {
    var s := a + [sep] + t;
    if |a| == 0 {
      assert s == [sep] + t && s[1..] == t;
    } else {
      assert s[1..] == a[1..] + [sep] + t;
      SplitFirst(a[1..], sep, t);
      assert a == [a[0]] + a[1..];
    }
  }

  /** Reading the rows back line by line gives one row per name, in order,
      and nothing else. */
  lemma {:induction false} RowsSplit(keys: seq<string>)
    requires forall i :: 0 <= i < |keys| ==> '\n' !in keys[i]
    ensures Split(Rows(keys), '\n') == RowLines(keys) + [""]
    decreases |keys|
  {
    if |keys| > 0 {
      RowsSplit(keys[1..]);
      SplitFirst(RowLine(keys[0]), '\n', Rows(keys[1..]));
      assert RowLine(keys[0]) + "\n" + Rows(keys[1..]) == RowLine(keys[0]) + ['\n'] + Rows(keys[1..]);
      assert RowLines(keys) == [RowLine(keys[0])] + RowLines(keys[1..]);
    }
  }

  /** Text that is empty or ends with a line break: what follows it starts
      a new line. */
  predicate LineStart(p: string)
  {
    |p| == 0 || p[|p| - 1] == '\n'
  }

  /** A line that starts a line and is ended by a break is one of the lines
      of the text; after a non-empty start it is not the first. */
  lemma {:induction false} LineIn(p: string, line: string, q: string)
    requires LineStart(p) && '\n' !in line
    ensures line in Split(p + line + "\n" + q, '\n')
    ensures |p| > 0 ==> line in Split(p + line + "\n" + q, '\n')[1..]
    decreases |p|
  {
    var s := p + line + "\n" + q;
    if |p| == 0 {
      assert s == line + ['\n'] + q;
      SplitFirst(line, '\n', q);
    } else {
      assert s[1..] == p[1..] + line + "\n" + q;
      LineIn(p[1..], line, q);
      var rest := Split(s[1..], '\n');
      if s[0] == '\n' {
        assert Split(s, '\n')[1..] == rest;
      } else {
        assert |p| >= 2;
        assert Split(s, '\n')[1..] == rest[1..];
      }
    }
  }

  /** The rows of two runs of names laid end to end. */
  lemma {:induction false} RowsAppend(a: seq<string>, b: seq<string>)
    ensures Rows(a + b) == Rows(a) + Rows(b)
    decreases |a|
  {
    if |a| == 0 {
      assert a + b == b;
    } else {
      assert (a + b)[1..] == a[1..] + b;
      RowsAppend(a[1..], b);
    }
  }

  /** Every row ends with a line break. */
  lemma {:induction false} RowsEndLine(a: seq<string>)
    ensures LineStart(Rows(a))
    decreases |a|
  {
    if |a| > 0 {
      RowsEndLine(a[1..]);
    }
  }

  /** The row of a listed name is a line of any text in which the table
      starts a line. */
  lemma RowInTable(pre: string, g: seq<string>, post: string, key: string)
    requires LineStart(pre)
    requires key in g
    requires forall i :: 0 <= i < |g| ==> '\n' !in g[i]
    ensures RowLine(key) in Split(pre + Rows(g) + post, '\n')
  {
    var i :| 0 <= i < |g| && g[i] == key;
    var before, line, after := Rows(g[..i]), RowLine(key), Rows(g[i + 1..]);
    assert Rows(g) == before + (line + "\n" + after) by {
      assert g == g[..i] + g[i..];
      RowsAppend(g[..i], g[i..]);
      assert g[i..][1..] == g[i + 1..];
    }
    var p := pre + before;
    RowsEndLine(g[..i]);
    assert LineStart(p) by {
      if |before| > 0 {
        assert p[|p| - 1] == before[|before| - 1];
      } else {
        assert p == pre;
      }
    }
    LineIn(p, line, after + post);
    Regroup(pre, before, line, after, post);
  }

  /** Regrouping a text around one of its lines. */
  lemma Regroup(a: string, b: string, c: string, d: string, e: string)
    ensures a + (b + (c + "\n" + d)) + e == (a + b) + c + "\n" + (d + e)
  {
  }

  const Header := "# API Reference\n\n" +
    "This reference shows all available schemas and their component names for use in path definitions.\n\n"

  const TableHeader := "| Schema Name | Referenced As |\n|-------------|---------------|\n"

  const WriteIntro := "## Write Schemas (Input Objects)\n\n" +
    "These schemas define the input structure for creating/updating resources.\n\n"

  const ObjectIntro := "## Full Object Schemas\n\n" +
    "These schemas define complete resource objects including system-generated properties.\n\n"

  const CommonIntro := "## Common Schemas\n\n" +
    "These are reusable schema components defined in common.yml files.\n\n"

  /** The fixed closing section: the naming rules and a usage example. */
  const QuickReference :=
    "## Quick Reference Rules\n\n" +
    "### File to Schema Name Transformations\n\n" +
    "**Write Entities:**\n" +
    "- File: `entities/writes/[name].yml`\n" +
    "- Schema: `write[Name]` (capitalized)\n" +
    "- Example: `entities/writes/user.yml` \U{2192} `writeUser`\n\n" +
    "**Full Entities:**\n" +
    "- File: `entities/[name].yml`\n" +
    "- Schema: `[name]Object`\n" +
    "- Example: `entities/user.yml` \U{2192} `userObject`\n\n" +
    "**Common Definitions:**\n" +
    "- File: `entities/common.yml#/definitions/[name]`\n" +
    "- Schema: `[name]`\n" +
    "- Example: `common.yml#/definitions/address` \U{2192} `address`\n\n" +
    "### Using in Path Definitions\n\n" +
    "In your `paths/*Paths.yml` files, always reference schemas with:\n" +
    "```yaml\n" +
    "$ref: '#/components/schemas/[schemaName]'\n" +
    "```\n\n" +
    "Example:\n" +
    "```yaml\n" +
    "responses:\n" +
    "  '200':\n" +
    "    description: successful operation\n" +
    "    content:\n" +
    "      application/json:\n" +
    "        schema:\n" +
    "          $ref: '#/components/schemas/userObject'\n" +
    "```\n"

  /** The fixed text of a reference: the page header, the table header, the
      heading and blurb of each group, and the closing section. */
  datatype Texts = Texts(header: string, tableHeader: string, writeIntro: string, objectIntro: string,
                         commonIntro: string, quickReference: string)
  {
    /** The heading and blurb of a group's section. */
    function Intro(kind: Kind): string
    {
      match kind
      case WriteSchema => writeIntro
      case ObjectSchema => objectIntro
      case CommonSchema => commonIntro
    }
  }

  /** The text docs.js writes around the tables. */
  const DocsText := Texts(Header, TableHeader, WriteIntro, ObjectIntro, CommonIntro, QuickReference)

  /** One section: its heading and blurb, the table header, the rows and a
      blank line. */
  function Section(t: Texts, kind: Kind, sorted: seq<string>): string
  {
    t.Intro(kind) + t.tableHeader + Rows(sorted) + "\n"
  }

  /** The reference from the three sorted groups. */
  function Render(t: Texts, writes: seq<string>, objects: seq<string>, commons: seq<string>): string
  {
    t.header + (Section(t, WriteSchema, writes) + Section(t, ObjectSchema, objects) +
                Section(t, CommonSchema, commons)) + t.quickReference
  }

  /** A reference opens with the header and closes with the closing section. */
  lemma RenderFramed(t: Texts, w: seq<string>, o: seq<string>, c: seq<string>)
    ensures StartsWith(Render(t, w, o, c), t.header)
    ensures EndsWith(Render(t, w, o, c), t.quickReference)
  {
    Framed(t.header, Section(t, WriteSchema, w) + Section(t, ObjectSchema, o) + Section(t, CommonSchema, c),
           t.quickReference);
  }

  /** A string framed by a prefix and a suffix starts and ends with them. */
  lemma Framed(p: string, m: string, q: string)
    ensures StartsWith(p + m + q, p) && EndsWith(p + m + q, q)
  {
    assert (p + m + q)[..|p|] == p;
    assert (p + m + q)[|p + m|..] == q;
  }

  /** The whole reference for the given schema names, in `Object.keys` order:
      each group's names sorted. */
  function Reference(keys: seq<string>): string
  {
    Render(DocsText, Sort(Bucket(keys, WriteSchema)), Sort(Bucket(keys, ObjectSchema)), Sort(Bucket(keys, CommonSchema)))
  }

  /** The docs.js reference opens with its header and closes with the quick
      reference. */
  lemma DocsFramed(keys: seq<string>)
    ensures StartsWith(Reference(keys), Header)
    ensures EndsWith(Reference(keys), QuickReference)
  {
    RenderFramed(DocsText, Sort(Bucket(keys, WriteSchema)), Sort(Bucket(keys, ObjectSchema)),
                 Sort(Bucket(keys, CommonSchema)));
  }

  /** The reference depends only on which names there are, not on the order
      in which they are enumerated. */
  lemma ReferenceOrderIndependent(keys: seq<string>, keys': seq<string>)
    requires multiset(keys) == multiset(keys')
    ensures Reference(keys) == Reference(keys')
  {
    SameGroup(keys, keys', WriteSchema);
    SameGroup(keys, keys', ObjectSchema);
    SameGroup(keys, keys', CommonSchema);
  }

  /** A group sorts to the same sequence whatever the order of the names. */
  lemma SameGroup(keys: seq<string>, keys': seq<string>, kind: Kind)
    requires multiset(keys) == multiset(keys')
    ensures Sort(Bucket(keys, kind)) == Sort(Bucket(keys', kind))
  {
    BucketPermutation(keys, keys', kind);
    SortedUnique(Sort(Bucket(keys, kind)), Sort(Bucket(keys', kind)));
  }

  /** Across the three tables there is one row per schema name. */
  lemma RowCount(keys: seq<string>)
    ensures |Sort(Bucket(keys, WriteSchema))| + |Sort(Bucket(keys, ObjectSchema))| +
            |Sort(Bucket(keys, CommonSchema))| == |keys|
  {
    var w, o, c := Bucket(keys, WriteSchema), Bucket(keys, ObjectSchema), Bucket(keys, CommonSchema);
    SortedLength(w);
    SortedLength(o);
    SortedLength(c);
    assert |multiset(w) + multiset(o) + multiset(c)| == |multiset(keys)| by {
      BucketsPartition(keys);
    }
  }

  /** Sorting keeps the number of names. */
  lemma SortedLength(s: seq<string>)
    ensures |Sort(s)| == |s|
  {
    assert |multiset(Sort(s))| == |multiset(s)|;
  }

  /** A group's sorted table lists exactly the names of that kind, none of
      them with a line break when no name has one. */
  lemma GroupListing(keys: seq<string>, kind: Kind)
    requires forall i :: 0 <= i < |keys| ==> '\n' !in keys[i]
    ensures forall x :: x in Sort(Bucket(keys, kind)) <==> x in keys && Classify(x) == kind
    ensures forall i :: 0 <= i < |Sort(Bucket(keys, kind))| ==> '\n' !in Sort(Bucket(keys, kind))[i]
  {
    var group := Bucket(keys, kind);
    var sorted := Sort(group);
    forall x
      ensures x in sorted <==> x in group
    {
      assert x in sorted <==> x in multiset(sorted);
      assert x in group <==> x in multiset(group);
    }
    forall i | 0 <= i < |sorted|
      ensures '\n' !in sorted[i]
    {
      assert sorted[i] in group;
    }
  }

  /** The row of every schema name is a line of the table of its group, and
      that table's lines are its rows in ascending order. */
  lemma KeyRowListed(keys: seq<string>, key: string)
    requires forall i :: 0 <= i < |keys| ==> '\n' !in keys[i]
    requires key in keys
    ensures RowLine(key) in Split(Rows(Sort(Bucket(keys, Classify(key)))), '\n')
  {
    var sorted := Sort(Bucket(keys, Classify(key)));
    GroupListing(keys, Classify(key));
    RowsSplit(sorted);
    var i :| 0 <= i < |sorted| && sorted[i] == key;
    assert RowLines(sorted)[i] == RowLine(key);
    assert (RowLines(sorted) + [""])[i] == RowLine(key);
  }

  /** The group of the given kind among the three rendered groups. */
  function Pick(w: seq<string>, o: seq<string>, c: seq<string>, kind: Kind): seq<string>
  {
    match kind
    case WriteSchema => w
    case ObjectSchema => o
    case CommonSchema => c
  }

  /** Where a group's section begins in `Render(t, w, o, c)`: after the header
      and the sections of the groups rendered before it. */
  function SectionStart(t: Texts, w: seq<string>, o: seq<string>, kind: Kind): nat
  {
    match kind
    case WriteSchema => |t.header|
    case ObjectSchema => |t.header| + |Section(t, WriteSchema, w)|
    case CommonSchema => |t.header| + |Section(t, WriteSchema, w)| + |Section(t, ObjectSchema, o)|
  }

  /** Where a group's section ends. */
  function SectionEnd(t: Texts, w: seq<string>, o: seq<string>, c: seq<string>, kind: Kind): nat
  {
    SectionStart(t, w, o, kind) + |Section(t, kind, Pick(w, o, c, kind))|
  }

  /** The ways of grouping `h + (a + b + c) + q` around each middle part. */
  lemma Groupings(h: string, a: string, b: string, c: string, q: string)
    ensures h + (a + b + c) + q == h + a + (b + c + q)
    ensures h + (a + b + c) + q == (h + a) + b + (c + q)
    ensures h + (a + b + c) + q == (h + a + b) + c + q
  {
  }

  /** `y` is the stretch of `x + y + z` that follows `x`. */
  lemma Middle(x: string, y: string, z: string)
    ensures |x + y + z| == |x| + |y| + |z|
    ensures (x + y + z)[|x|..|x| + |y|] == y
  {
  }

  /** The rendered text split around one group's section. */
  lemma AroundSection(t: Texts, w: seq<string>, o: seq<string>, c: seq<string>, kind: Kind)
    ensures var r := Render(t, w, o, c);
            var lo, hi := SectionStart(t, w, o, kind), SectionEnd(t, w, o, c, kind);
            lo <= hi <= |r| && r == r[..lo] + Section(t, kind, Pick(w, o, c, kind)) + r[hi..]
  {
    var r := Render(t, w, o, c);
    var a, b, cc := Section(t, WriteSchema, w), Section(t, ObjectSchema, o), Section(t, CommonSchema, c);
    assert r == t.header + (a + b + cc) + t.quickReference;
    Groupings(t.header, a, b, cc, t.quickReference);
    var x, y, z := match kind
      case WriteSchema => t.header
      case ObjectSchema => t.header + a
      case CommonSchema => t.header + a + b,
      Section(t, kind, Pick(w, o, c, kind)),
      match kind
      case WriteSchema => b + cc + t.quickReference
      case ObjectSchema => cc + t.quickReference
      case CommonSchema => t.quickReference;
    assert r == x + y + z;
    assert r[..|x|] == x && r[|x| + |y|..] == z;
  }

  /** The sections follow the header in the order write, full-object,
      common, each ending where the next begins, and the closing section
      follows the last. */
  lemma SectionOrder(t: Texts, w: seq<string>, o: seq<string>, c: seq<string>)
    ensures SectionStart(t, w, o, WriteSchema) < SectionStart(t, w, o, ObjectSchema) < SectionStart(t, w, o, CommonSchema)
    ensures SectionEnd(t, w, o, c, WriteSchema) == SectionStart(t, w, o, ObjectSchema)
    ensures SectionEnd(t, w, o, c, ObjectSchema) == SectionStart(t, w, o, CommonSchema)
    ensures SectionEnd(t, w, o, c, CommonSchema) + |t.quickReference| == |Render(t, w, o, c)|
  {
    var a, b, cc := Section(t, WriteSchema, w), Section(t, ObjectSchema, o), Section(t, CommonSchema, c);
    assert |Render(t, w, o, c)| == |t.header| + |a| + |b| + |cc| + |t.quickReference|;
    assert |a| > 0 && |b| > 0;
  }

  /** Each group's section is the stretch of the reference between its start
      and its end, and it opens with the group's heading. */
  lemma RenderLayout(t: Texts, w: seq<string>, o: seq<string>, c: seq<string>, kind: Kind)
    ensures SectionEnd(t, w, o, c, kind) <= |Render(t, w, o, c)|
    ensures Render(t, w, o, c)[SectionStart(t, w, o, kind)..SectionEnd(t, w, o, c, kind)] ==
            Section(t, kind, Pick(w, o, c, kind))
    ensures OccursAt(Render(t, w, o, c), t.Intro(kind), SectionStart(t, w, o, kind))
  {
    var r := Render(t, w, o, c);
    var lo, hi := SectionStart(t, w, o, kind), SectionEnd(t, w, o, c, kind);
    AroundSection(t, w, o, c, kind);
    var sec := Section(t, kind, Pick(w, o, c, kind));
    Middle(r[..lo], sec, r[hi..]);
    PrefixOf(t.Intro(kind), t.tableHeader, Rows(Pick(w, o, c, kind)), "\n");
    assert r[lo..lo + |t.Intro(kind)|] == sec[..|t.Intro(kind)|];
  }

  /** The first of four concatenated parts is a prefix of the whole. */
  lemma PrefixOf(x: string, y: string, z: string, u: string)
    ensures |x| <= |x + y + z + u| && (x + y + z + u)[..|x|] == x
  {
  }

  /** Regrouping a text around a section's rows. */
  lemma AroundRows(x: string, intro: string, th: string, rows: string, z: string)
    ensures x + (intro + th + rows + "\n") + z == (x + (intro + th)) + rows + ("\n" + z)
  {
  }

  /** With a table header that ends its line, the row of a name in a group
      is a line of any text that holds the group's section. */
  lemma RowInFramedSection(x: string, intro: string, th: string, g: seq<string>, z: string, key: string)
    requires LineStart(th) && |th| > 0
    requires key in g
    requires forall i :: 0 <= i < |g| ==> '\n' !in g[i]
    ensures RowLine(key) in Split(x + (intro + th + Rows(g) + "\n") + z, '\n')
  {
    var pre := x + (intro + th);
    assert LineStart(pre) by {
      assert pre[|pre| - 1] == th[|th| - 1];
    }
    AroundRows(x, intro, th, Rows(g), z);
    RowInTable(pre, g, "\n" + z, key);
  }

  /** With a table header that ends its line, the row of a name in a group is
      a line of that group's section and a line of the whole reference. */
  lemma RowInRender(t: Texts, w: seq<string>, o: seq<string>, c: seq<string>, kind: Kind, key: string)
    requires LineStart(t.tableHeader) && |t.tableHeader| > 0
    requires key in Pick(w, o, c, kind)
    requires forall i :: 0 <= i < |Pick(w, o, c, kind)| ==> '\n' !in Pick(w, o, c, kind)[i]
    ensures SectionEnd(t, w, o, c, kind) <= |Render(t, w, o, c)|
    ensures RowLine(key) in Split(Render(t, w, o, c)[SectionStart(t, w, o, kind)..SectionEnd(t, w, o, c, kind)], '\n')
    ensures RowLine(key) in Split(Render(t, w, o, c), '\n')
  {
    RowInSlice(t, w, o, c, kind, key);
    RowInWhole(t, w, o, c, kind, key);
  }

  /** The section half of `RowInRender`. */
  lemma RowInSlice(t: Texts, w: seq<string>, o: seq<string>, c: seq<string>, kind: Kind, key: string)
    requires LineStart(t.tableHeader) && |t.tableHeader| > 0
    requires key in Pick(w, o, c, kind)
    requires forall i :: 0 <= i < |Pick(w, o, c, kind)| ==> '\n' !in Pick(w, o, c, kind)[i]
    ensures SectionEnd(t, w, o, c, kind) <= |Render(t, w, o, c)|
    ensures RowLine(key) in Split(Render(t, w, o, c)[SectionStart(t, w, o, kind)..SectionEnd(t, w, o, c, kind)], '\n')
  {
    var g := Pick(w, o, c, kind);
    RenderLayout(t, w, o, c, kind);
    RowInFramedSection("", t.Intro(kind), t.tableHeader, g, "", key);
    assert "" + Section(t, kind, g) + "" == Section(t, kind, g);
  }

  /** The whole-reference half of `RowInRender`. */
  lemma RowInWhole(t: Texts, w: seq<string>, o: seq<string>, c: seq<string>, kind: Kind, key: string)
    requires LineStart(t.tableHeader) && |t.tableHeader| > 0
    requires key in Pick(w, o, c, kind)
    requires forall i :: 0 <= i < |Pick(w, o, c, kind)| ==> '\n' !in Pick(w, o, c, kind)[i]
    ensures RowLine(key) in Split(Render(t, w, o, c), '\n')
  {
    var r := Render(t, w, o, c);
    var lo, hi := SectionStart(t, w, o, kind), SectionEnd(t, w, o, c, kind);
    AroundSection(t, w, o, c, kind);
    RowInFramedSection(r[..lo], t.Intro(kind), t.tableHeader, Pick(w, o, c, kind), r[hi..], key);
  }

  /** The table header docs.js writes ends its line. */
  lemma TableHeaderEndsLine()
    ensures LineStart(DocsText.tableHeader) && |DocsText.tableHeader| > 0
  {
  }

  /** Any reference built from the groups of `keys` lays out the write,
      full-object and common sections in that order, each opening with its
      heading. */
  lemma SectionsInOrder(t: Texts, keys: seq<string>)
    ensures var w, o, c := Sort(Bucket(keys, WriteSchema)), Sort(Bucket(keys, ObjectSchema)), Sort(Bucket(keys, CommonSchema));
            var r := Render(t, w, o, c);
            SectionStart(t, w, o, WriteSchema) < SectionStart(t, w, o, ObjectSchema) < SectionStart(t, w, o, CommonSchema) &&
            OccursAt(r, t.writeIntro, SectionStart(t, w, o, WriteSchema)) &&
            OccursAt(r, t.objectIntro, SectionStart(t, w, o, ObjectSchema)) &&
            OccursAt(r, t.commonIntro, SectionStart(t, w, o, CommonSchema))
  {
    var w, o, c := Sort(Bucket(keys, WriteSchema)), Sort(Bucket(keys, ObjectSchema)), Sort(Bucket(keys, CommonSchema));
    SectionOrder(t, w, o, c);
    RenderLayout(t, w, o, c, WriteSchema);
    RenderLayout(t, w, o, c, ObjectSchema);
    RenderLayout(t, w, o, c, CommonSchema);
  }

  /** The docs.js reference: the write section's heading comes first, then
      the full-object one, then the common one. */
  lemma DocsSectionsInOrder(keys: seq<string>)
    ensures exists i: nat, j: nat, l: nat :: i < j < l && OccursAt(Reference(keys), WriteIntro, i) &&
              OccursAt(Reference(keys), ObjectIntro, j) && OccursAt(Reference(keys), CommonIntro, l)
  {
    SectionsInOrder(DocsText, keys);
    var w, o := Sort(Bucket(keys, WriteSchema)), Sort(Bucket(keys, ObjectSchema));
    var i, j, l := SectionStart(DocsText, w, o, WriteSchema), SectionStart(DocsText, w, o, ObjectSchema),
                   SectionStart(DocsText, w, o, CommonSchema);
    assert OccursAt(Reference(keys), WriteIntro, i);
    assert OccursAt(Reference(keys), ObjectIntro, j);
    assert OccursAt(Reference(keys), CommonIntro, l);
  }

  /** With a table header that ends its line, every schema name's row is a
      line of the reference built from the groups of `keys`, inside the
      section of its group. */
  lemma RowInReference(t: Texts, keys: seq<string>, key: string)
    requires LineStart(t.tableHeader) && |t.tableHeader| > 0
    requires forall i :: 0 <= i < |keys| ==> '\n' !in keys[i]
    requires key in keys
    ensures var w, o, c := Sort(Bucket(keys, WriteSchema)), Sort(Bucket(keys, ObjectSchema)), Sort(Bucket(keys, CommonSchema));
            var r := Render(t, w, o, c);
            var lo, hi := SectionStart(t, w, o, Classify(key)), SectionEnd(t, w, o, c, Classify(key));
            lo <= hi <= |r| && RowLine(key) in Split(r[lo..hi], '\n') && RowLine(key) in Split(r, '\n')
  {
    var w, o, c := Sort(Bucket(keys, WriteSchema)), Sort(Bucket(keys, ObjectSchema)), Sort(Bucket(keys, CommonSchema));
    var kind := Classify(key);
    GroupListing(keys, kind);
    assert Pick(w, o, c, kind) == Sort(Bucket(keys, kind));
    RowInRender(t, w, o, c, kind, key);
  }

  /** Every schema name's row is a line of the docs.js reference. */
  lemma DocsRowListed(keys: seq<string>, key: string)
    requires forall i :: 0 <= i < |keys| ==> '\n' !in keys[i]
    requires key in keys
    ensures RowLine(key) in Split(Reference(keys), '\n')
  {
    TableHeaderEndsLine();
    RowInReference(DocsText, keys, key);
  }
}

=== FILE: json.dfy ===
/**
 * The in-memory tree a YAML/JSON document parses to, and the ordered-mapping
 * operations JavaScript objects provide on it (property lookup, property
 * assignment, `Object.assign`, the duplicate-name rule of JSON.parse).
 */
module Tree {
  import opened Wrappers

  /** A parsed document: JavaScript's null, booleans, numbers, strings, arrays
      and plain objects. An object keeps its properties in enumeration order. */
  datatype Json =
    | JNull
    | JBool(b: bool)
    | JNum(n: real)
    | JStr(s: string)
    | JArr(items: seq<Json>)
    | JObj(members: seq<Member>)

  /** One property of an object. */
  datatype Member = Member(key: string, value: Json)

  /** The property names of an object, in enumeration order (`Object.keys`). */
  function Keys(ms: seq<Member>): (ks: seq<string>)
    ensures |ks| == |ms|
  {
    if |ms| == 0 then [] else [ms[0].key] + Keys(ms[1..])
  }

  /** The name at each position is the name of the member there. */
  lemma {:induction false} KeysAt(ms: seq<Member>, i: nat)
    requires i < |ms|
    ensures Keys(ms)[i] == ms[i].key
  {
    if i > 0 {
      KeysAt(ms[1..], i - 1);
    }
  }

  /** The names of two runs of members laid end to end. */
  lemma {:induction false} KeysAppend(a: seq<Member>, b: seq<Member>)
    ensures Keys(a + b) == Keys(a) + Keys(b)
  {
    if |a| == 0 {
      assert a + b == b;
    } else {
      assert (a + b)[1..] == a[1..] + b;
      KeysAppend(a[1..], b);
      assert Keys(a + b) == [a[0].key] + Keys(a[1..] + b);
    }
  }

  /** No name occurs twice in `ks`. */
  predicate NoDups(ks: seq<string>)
  {
    forall i, j :: 0 <= i < j < |ks| ==> ks[i] != ks[j]
  }

  /** No property name occurs twice. */
  predicate Distinct(ms: seq<Member>)
  {
    NoDups(Keys(ms))
  }

  /** Every object anywhere in the tree has distinct property names, as every
      tree produced by a parser of YAML or JSON has. */
  predicate WellFormed(j: Json)
  {
    match j
    case JArr(xs) => forall i :: 0 <= i < |xs| ==> WellFormed(xs[i])
    case JObj(ms) => Distinct(ms) && forall i :: 0 <= i < |ms| ==> WellFormed(ms[i].value)
    case _ => true
  }

  /** Property lookup `o[k]`; `None` is JavaScript's `undefined`. */
  function Get(ms: seq<Member>, k: string): (r: Option<Json>)
    ensures r.None? <==> k !in Keys(ms)
  {
    if |ms| == 0 then None
    else if ms[0].key == k then Some(ms[0].value)
    else Get(ms[1..], k)
  }

  /** Property assignment `o[k] = v`: an existing property keeps its place and
      takes the new value; a new property is appended. */
  function Put(ms: seq<Member>, k: string, v: Json): (r: seq<Member>)
    ensures Get(r, k) == Some(v)
  {
    if |ms| == 0 then [Member(k, v)]
    else if ms[0].key == k then [Member(k, v)] + ms[1..]
    else [ms[0]] + Put(ms[1..], k, v)
  }

  /** Assigning an existing property keeps the names; a new one is appended. */
  lemma PutKeys(ms: seq<Member>, k: string, v: Json)
    ensures k in Keys(ms) ==> Keys(Put(ms, k, v)) == Keys(ms)
    ensures k !in Keys(ms) ==> Put(ms, k, v) == ms + [Member(k, v)]
    ensures k !in Keys(ms) ==> Keys(Put(ms, k, v)) == Keys(ms) + [k]
  {
    if k in Keys(ms) {
      PutExistingKeys(ms, k, v);
    } else {
      PutFreshAppends(ms, k, v);
      KeysAppend(ms, [Member(k, v)]);
      assert Keys([Member(k, v)]) == [k] + Keys([]);
    }
  }

  lemma {:induction false} PutExistingKeys(ms: seq<Member>, k: string, v: Json)
    requires k in Keys(ms)
    ensures Keys(Put(ms, k, v)) == Keys(ms)
  {
    assert Keys(ms) == [ms[0].key] + Keys(ms[1..]);
    if ms[0].key == k {
      assert Keys(Put(ms, k, v)) == [k] + Keys(ms[1..]);
    } else {
      PutExistingKeys(ms[1..], k, v);
      assert Keys(Put(ms, k, v)) == [ms[0].key] + Keys(Put(ms[1..], k, v));
    }
  }

  lemma {:induction false} PutFreshAppends(ms: seq<Member>, k: string, v: Json)
    requires k !in Keys(ms)
    ensures Put(ms, k, v) == ms + [Member(k, v)]
  {
    if |ms| > 0 {
      assert Keys(ms) == [ms[0].key] + Keys(ms[1..]);
      PutFreshAppends(ms[1..], k, v);
      assert ms == [ms[0]] + ms[1..];
    }
  }

  /** Assigning one property leaves every other property as it was. */
  lemma {:induction false} PutFrame(ms: seq<Member>, k: string, v: Json, k': string)
    requires k' != k
    ensures Get(Put(ms, k, v), k') == Get(ms, k')
  {
    if |ms| > 0 && ms[0].key != k {
      PutFrame(ms[1..], k, v, k');
    }
  }

  /** Appending a new name keeps names distinct. */
  lemma NoDupsSnoc(ks: seq<string>, k: string)
    requires NoDups(ks) && k !in ks
    ensures NoDups(ks + [k])
  {
    forall i, j | 0 <= i < j < |ks| + 1
      ensures (ks + [k])[i] != (ks + [k])[j]
    {
      if j == |ks| {
        assert (ks + [k])[i] == ks[i];
      }
    }
  }

  /** Assignment keeps property names distinct. */
  lemma PutDistinct(ms: seq<Member>, k: string, v: Json)
    ensures Distinct(ms) ==> Distinct(Put(ms, k, v))
  {
    PutKeys(ms, k, v);
    if Distinct(ms) && k !in Keys(ms) {
      KeysAppend(ms, [Member(k, v)]);
      NoDupsSnoc(Keys(ms), k);
    }
  }

  /** `Object.assign(target, source)` restricted to the properties `adds`
      enumerates: each one assigned in turn. */
  function PutAll(ms: seq<Member>, adds: seq<Member>): (r: seq<Member>)
    ensures forall x :: x in Keys(r) <==> x in Keys(ms) || x in Keys(adds)
    ensures Distinct(ms) ==> Distinct(r)
    decreases |adds|
  {
    if |adds| == 0 then ms
    else
      PutDistinct(ms, adds[0].key, adds[0].value);
      PutKeys(ms, adds[0].key, adds[0].value);
      assert Keys(adds) == [adds[0].key] + Keys(adds[1..]);
      PutAll(Put(ms, adds[0].key, adds[0].value), adds[1..])
  }

  /** The object JSON.parse builds from the members it reads, in order: a
      repeated name keeps its first position and its last value. */
  function Dedup(ms: seq<Member>): (r: seq<Member>)
    ensures Distinct(r)
    ensures forall x :: x in Keys(r) <==> x in Keys(ms)
  {
    PutAll([], ms)
  }

  /** The value of the LAST member named `k` among `adds`, if any. */
  function LastValue(adds: seq<Member>, k: string): Option<Json>
    decreases |adds|
  {
    if |adds| == 0 then None
    else if adds[|adds| - 1].key == k then Some(adds[|adds| - 1].value)
    else LastValue(adds[..|adds| - 1], k)
  }

  /** Assigning one more property after a batch. */
  lemma {:induction false} PutAllSnoc(ms: seq<Member>, front: seq<Member>, last: Member)
    ensures PutAll(ms, front + [last]) == Put(PutAll(ms, front), last.key, last.value)
    decreases |front|
  {
    if |front| == 0 {
      assert front + [last] == [last];
    } else {
      assert (front + [last])[1..] == front[1..] + [last];
      PutAllSnoc(Put(ms, front[0].key, front[0].value), front[1..], last);
    }
  }

  /** Assigning properties in order: the last assignment to a name wins, and a
      name never assigned keeps its original value. */
  lemma {:induction false} PutAllLastWins(ms: seq<Member>, adds: seq<Member>, k: string)
    ensures Get(PutAll(ms, adds), k) ==
            (if LastValue(adds, k).Some? then LastValue(adds, k) else Get(ms, k))
    decreases |adds|
  {
    if |adds| > 0 {
      var n := |adds| - 1;
      var front := adds[..n];
      assert adds == front + [adds[n]];
      PutAllSnoc(ms, front, adds[n]);
      if adds[n].key != k {
        PutFrame(PutAll(ms, front), adds[n].key, adds[n].value, k);
        PutAllLastWins(ms, front, k);
      }
    }
  }

  /** Dropping the last name keeps names distinct, and the last name is not
      among the others. */
  lemma NoDupsUnsnoc(ks: seq<string>, k: string)
    requires NoDups(ks + [k])
    ensures NoDups(ks) && k !in ks
  {
    var all := ks + [k];
    forall i, j | 0 <= i < j < |ks|
      ensures ks[i] != ks[j]
    {
      assert all[i] == ks[i] && all[j] == ks[j];
    }
    forall i | 0 <= i < |ks|
      ensures ks[i] != k
    {
      assert all[i] == ks[i] && all[|ks|] == k;
    }
  }

  /** JSON.parse of text without repeated names yields the members as read. */
  lemma {:induction false} DedupDistinct(ms: seq<Member>)
    requires Distinct(ms)
    ensures Dedup(ms) == ms
    decreases |ms|
  {
    if |ms| > 0 {
      var n := |ms| - 1;
      var front := ms[..n];
      var last := ms[n];
      assert ms == front + [last];
      assert Keys(ms) == Keys(front) + [last.key] by {
        KeysAppend(front, [last]);
        assert Keys([last]) == [last.key] + Keys([]);
      }
      NoDupsUnsnoc(Keys(front), last.key);
      DedupDistinct(front);
      PutAllSnoc([], front, last);
      PutKeys(front, last.key, last.value);
    }
  }

  /** Assigning two batches in turn is assigning their concatenation. */
  lemma {:induction false} PutAllAppend(ms: seq<Member>, a: seq<Member>, b: seq<Member>)
    ensures PutAll(ms, a + b) == PutAll(PutAll(ms, a), b)
    decreases |a|
  {
    if |a| == 0 {
      assert a + b == b;
    } else {
      assert (a + b)[1..] == a[1..] + b;
      PutAllAppend(Put(ms, a[0].key, a[0].value), a[1..], b);
    }
  }

  /** The names of a run with one more member. */
  lemma KeysSnoc(front: seq<Member>, last: Member)
    ensures Keys(front + [last]) == Keys(front) + [last.key]
  {
    KeysAppend(front, [last]);
    assert Keys([last]) == [last.key] + Keys([]);
  }

  /** Some member of `a` is named `k` exactly when `k` is among its names. */
  lemma {:induction false} LastValueFound(a: seq<Member>, k: string)
    ensures LastValue(a, k).Some? <==> k in Keys(a)
    decreases |a|
  {
    if |a| > 0 {
      var front, last := a[..|a| - 1], a[|a| - 1];
      assert Keys(a) == Keys(front) + [last.key] by {
        assert a == front + [last];
        KeysSnoc(front, last);
      }
      LastValueFound(front, k);
    }
  }

  /** Among members with distinct names, the last value of a name is the
      value of the one member carrying it. */
  lemma {:induction false} LastValueUnique(a: seq<Member>, m: Member)
    requires Distinct(a) && m in a
    ensures LastValue(a, m.key) == Some(m.value)
    decreases |a|
  {
    var n := |a| - 1;
    var front := a[..n];
    assert Keys(a) == Keys(front) + [a[n].key] by {
      assert a == front + [a[n]];
      KeysSnoc(front, a[n]);
    }
    NoDupsUnsnoc(Keys(front), a[n].key);
    if a[n] != m {
      assert a == front + [a[n]];
      assert m in front;
      var i :| 0 <= i < n && front[i] == m;
      KeysAt(front, i);
      assert a[n].key != m.key;
      LastValueUnique(front, m);
    }
  }

  /** Two batches with distinct names and the same members assign the same
      value to every name, whatever their order. */
  lemma LastValueSameMembers(a: seq<Member>, b: seq<Member>, k: string)
    requires Distinct(a) && Distinct(b)
    requires forall m :: m in a <==> m in b
    ensures LastValue(a, k) == LastValue(b, k)
  {
    LastValueFound(a, k);
    LastValueFound(b, k);
    if k in Keys(a) {
      var i :| 0 <= i < |a| && Keys(a)[i] == k;
      KeysAt(a, i);
      LastValueUnique(a, a[i]);
      LastValueUnique(b, a[i]);
    } else if k in Keys(b) {
      var i :| 0 <= i < |b| && Keys(b)[i] == k;
      KeysAt(b, i);
      LastValueUnique(a, b[i]);
    }
  }

  /** A name is among the names exactly when some member carries it. */
  lemma InKeys(ms: seq<Member>, x: string)
    ensures x in Keys(ms) <==> exists m :: m in ms && m.key == x
  {
    if x in Keys(ms) {
      var i :| 0 <= i < |ms| && Keys(ms)[i] == x;
      KeysAt(ms, i);
      assert ms[i] in ms;
    }
    if exists m :: m in ms && m.key == x {
      var m :| m in ms && m.key == x;
      var i :| 0 <= i < |ms| && ms[i] == m;
      KeysAt(ms, i);
    }
  }

  /** Assigning a property the value it already has changes nothing. */
  lemma {:induction false} PutPresent(ms: seq<Member>, k: string, v: Json)
    requires Get(ms, k) == Some(v)
    ensures Put(ms, k, v) == ms
    decreases |ms|
  {
    if ms[0].key != k {
      PutPresent(ms[1..], k, v);
    }
  }
}

=== FILE: names.dfy ===
/**
 * The naming convention that turns a fragment's file name into the key its
 * schema is registered under, and the two pointer builders that target those
 * keys (`fixWrite`, `fixObj`).
 */
module Names {
  import opened Wrappers
  import opened Strings

  /** The fragment extension; only names containing it are read. */
  const Yml := ".yml"

  /** The JSON pointer of the merged component-schema mapping. */
  const SchemasPointer := "#/components/schemas"

  /** What every rewritten reference starts with. */
  const SchemaPrefix := SchemasPointer + "/"

  /** The pointer to the registered schema `name`. */
  function SchemaRef(name: string): string
  {
    SchemaPrefix + name
  }

  /** A pointer of the one canonical form: the schema prefix followed by a
      name without any `/`. */
  predicate IsCanonical(r: string)
  {
    StartsWith(r, SchemaPrefix) && '/' !in r[|SchemaPrefix|..]
  }

  /** Key of a write-input fragment: "write", the first character upper-cased,
      then the rest of the file name with its first ".yml" removed. */
  function WriteName(file: string): (r: string)
    ensures StartsWith(r, "write")
    ensures '/' !in file ==> '/' !in r
  {
    var r := "write" + UpperFirst(file) + ReplaceFirst(Tail(file), Yml, "");
    assert r[..5] == "write";
    r
  }

  /** Key of a full-object fragment: the file name with its first ".yml"
      removed, then "Object". */
  function ObjectName(file: string): (r: string)
    ensures EndsWith(r, "Object")
    ensures '/' !in file ==> '/' !in r
  {
    var r := ReplaceFirst(file, Yml, "") + "Object";
    assert r[|r| - 6..] == "Object";
    r
  }

  /** Removing the first ".yml" from `t + ".yml"` gives `t` back whenever `t`
      holds no ".yml": an occurrence cannot straddle the boundary, because no
      proper suffix of ".yml" is a prefix of it. */
  lemma StripYml(t: string)
    requires !Contains(t, Yml)
    ensures ReplaceFirst(t + Yml, Yml, "") == t
  {
    var s := t + Yml;
    assert OccursAt(s, Yml, |t|) by {
      assert s[|t|..|t| + 4] == Yml;
    }
    forall j: nat | j < |t|
      ensures !OccursAt(s, Yml, j)
    {
      if j + 4 <= |t| {
        assert !OccursAt(t, Yml, j);
        assert t[j..j + 4] == s[j..j + 4];
      } else {
        assert s[|t|] == '.';
        assert s[j..j + 4][|t| - j] == s[|t|];
      }
    }
    assert IndexOf(s, Yml) == Some(|t|);
    assert s[..|t|] == t;
  }

  /** `entities/writes/<c><stem>.yml` is registered as write<C><stem>. */
  lemma WriteNameOfFile(c: char, stem: string)
    requires !Contains(stem, Yml)
    ensures WriteName([c] + stem + Yml) == "write" + [Upper(c)] + stem
  {
    var f := [c] + stem + Yml;
    assert Tail(f) == stem + Yml;
    StripYml(stem);
  }

  /** `entities/<stem>.yml` is registered as <stem>Object. */
  lemma ObjectNameOfFile(stem: string)
    requires !Contains(stem, Yml)
    ensures ObjectName(stem + Yml) == stem + "Object"
  {
    StripYml(stem);
  }

  /** `fixWrite`: the pointer to the write schema named after the last path
      segment of the reference. */
  function FixWrite(ref: string): (r: string)
    ensures IsCanonical(r)
  {
    var r := SchemaRef(WriteName(LastSegment(ref, '/')));
    assert r[|SchemaPrefix|..] == WriteName(LastSegment(ref, '/'));
    r
  }

  /** `fixObj`: the pointer to the write schema (write-local mode) or to the
      object schema named after the reference. */
  function FixObj(ref: string, writeLocal: bool): (r: string)
    ensures '/' !in ref ==> IsCanonical(r)
  {
    var name := if writeLocal then WriteName(ref) else ObjectName(ref);
    var r := SchemaRef(name);
    assert r[|SchemaPrefix|..] == name;
    r
  }

  /** A reference into the writes directory, whatever precedes it, targets the
      key the write fragment `f` is registered under. */
  lemma FixWriteTargetsWriteName(dir: string, f: string)
    requires '/' !in f
    ensures FixWrite(dir + "writes/" + f) == SchemaRef(WriteName(f))
  {
    assert dir + "writes/" + f == (dir + "writes") + ['/'] + f;
    LastSegmentAfter(dir + "writes", '/', f);
  }
}

=== FILE: refs.dfy ===
/**
 * The reference rewriter (`fixRefs` in lib.js): a depth-first copy of a tree
 * in which `$ref` strings pointing at another fragment file are replaced by
 * the canonical pointer to the schema that file is registered under.
 *
 * The JavaScript function copies its input, then visits every property
 * concurrently and swallows every exception. The model is the value that
 * copy ends up holding once all visits have settled:
 *  - a `$ref` string is rewritten by `RewriteRef`;
 *  - a `$ref` holding an array is descended into like any array (arrays have
 *    an `includes` method, and `fixWrite`/`fixObj` hand a non-string back);
 *  - a `$ref` holding an object, null, a boolean or a number makes
 *    `.includes` throw before the descent is reached, so the copy keeps it;
 *  - any other object or array is descended into with the mode flag reset;
 *  - descending into null throws inside `Object.keys`, which leaves the copy
 *    of null in place; scalars are copied.
 */
module Refs {
  import opened Tree
  import opened Strings
  import opened Names

  /** The one property name whose string values are rewritten. */
  const RefKey := "$ref"

  /** A string whose `w` characters all follow its last `/` holds no
      "writes/". */
  lemma NoWritesSegment(p: string, x: string)
    requires 'w' !in p && '/' !in x
    ensures !Contains(p + x, "writes/")
  {
    var r := p + x;
    var n := |p|;
    forall i: nat | i + 7 <= |r|
      ensures !OccursAt(r, "writes/", i)
    {
      if i < n {
        assert r[i] == p[i];
      } else {
        assert r[i + 6] == x[i + 6 - n];
      }
    }
  }

  /** A canonical pointer is never rewritten again: it contains a `/` and, as
      the schema prefix has no `w` and the name no `/`, no "writes/". */
  lemma CanonicalIsStable(r: string)
    requires IsCanonical(r)
    ensures Contains(r, "/") && !Contains(r, "writes/")
  {
    var n := |SchemaPrefix|;
    assert OccursAt(r, "/", 1) by {
      assert r[..n] == SchemaPrefix;
      assert r[1] == '/';
    }
    assert r == SchemaPrefix + r[n..];
    NoWritesSegment(SchemaPrefix, r[n..]);
  }

  /** A reference into the writes directory always contains a `/`, so the two
      rewriting cases of `fixRefs` never both apply. */
  lemma RewriteCasesExclusive(s: string)
    ensures Contains(s, "writes/") ==> Contains(s, "/")
  {
    if Contains(s, "writes/") {
      ContainsChars(s, "writes/", '/');
      ContainsChar(s, '/');
    }
  }

  /** Facts behind the two rewriting cases: each produces a canonical
      pointer different from its input. */
  lemma RewriteCases(s: string, localToWrites: bool)
    ensures Contains(s, "writes/") ==> Contains(s, "/") && FixWrite(s) != s
    ensures !Contains(s, "/") && Contains(s, Yml) ==>
              IsCanonical(FixObj(s, localToWrites)) && FixObj(s, localToWrites) != s
  {
    RewriteCasesExclusive(s);
    ContainsChar(s, '/');
    if Contains(s, "writes/") {
      CanonicalIsStable(FixWrite(s));
    }
    if !Contains(s, "/") && Contains(s, Yml) {
      assert FixObj(s, localToWrites)[1] == '/';
    }
  }

  /** The rewriting of one `$ref` string: a reference into the writes
      directory becomes a write-schema pointer; otherwise a bare file name
      with ".yml" becomes an object-schema pointer (a write-schema pointer in
      write-local mode); anything else is kept. */
  function RewriteRef(s: string, localToWrites: bool): (r: string)
    ensures r != s <==> Contains(s, "writes/") || (!Contains(s, "/") && Contains(s, Yml))
    ensures r != s ==> IsCanonical(r)
  {
    RewriteCases(s, localToWrites);
    var afterWrite := if Contains(s, "writes/") then FixWrite(s) else s;
    if !Contains(s, "/") && Contains(s, Yml) then FixObj(s, localToWrites) else afterWrite
  }

  /** The rewriting is idempotent, whatever mode each pass uses. */
  lemma RewriteRefIdempotent(s: string, f: bool, g: bool)
    ensures RewriteRef(RewriteRef(s, f), g) == RewriteRef(s, f)
  {
    var r := RewriteRef(s, f);
    if r != s {
      CanonicalIsStable(r);
    }
  }

  /** `b` is `a` with at most its `$ref` strings replaced by other strings:
      same constructors, same array lengths, same property names in the same
      order, every other scalar unchanged. */
  predicate Reshaped(a: Json, b: Json)
    decreases a
  {
    match a
    case JArr(xs) =>
      b.JArr? && |b.items| == |xs| &&
      forall i :: 0 <= i < |xs| ==> Reshaped(xs[i], b.items[i])
    case JObj(ms) =>
      b.JObj? && |b.members| == |ms| &&
      forall i :: 0 <= i < |ms| ==> MemberReshaped(ms[i], b.members[i])
    case _ => b == a
  }

  /** One property of a `Reshaped` pair: same name; a `$ref` string may change
      to another string; a `$ref` array is reshaped; any other `$ref` value is
      kept; any other property's value is reshaped. */
  predicate MemberReshaped(m: Member, n: Member)
    decreases m
  {
    n.key == m.key &&
    if m.key != RefKey then Reshaped(m.value, n.value)
    else match m.value
      case JStr(_) => n.value.JStr?
      case JArr(_) => Reshaped(m.value, n.value)
      case _ => n.value == m.value
  }

  /** `fixRefs(obj, localToWrites)`. */
  function FixRefs(j: Json, localToWrites: bool): (r: Json)
    ensures Reshaped(j, r)
    decreases j
  {
    match j
    case JArr(xs) => JArr(FixItems(xs))
    case JObj(ms) => JObj(FixMembers(ms, localToWrites))
    case _ => j
  }

  /** Every element of an array, rewritten in default mode. */
  function FixItems(xs: seq<Json>): (r: seq<Json>)
    ensures |r| == |xs|
    ensures forall i :: 0 <= i < |xs| ==> Reshaped(xs[i], r[i])
    decreases xs
  {
    seq(|xs|, i requires 0 <= i < |xs| => FixRefs(xs[i], false))
  }

  /** Every property of an object; the mode reaches only its `$ref`. */
  function FixMembers(ms: seq<Member>, localToWrites: bool): (r: seq<Member>)
    ensures |r| == |ms|
    ensures forall i :: 0 <= i < |ms| ==> MemberReshaped(ms[i], r[i])
    decreases ms
  {
    seq(|ms|, i requires 0 <= i < |ms| => FixMember(ms[i], localToWrites))
  }

  /** One property of an object. */
  function FixMember(m: Member, localToWrites: bool): (n: Member)
    ensures MemberReshaped(m, n)
    decreases m
  {
    if m.key != RefKey then Member(m.key, FixRefs(m.value, false))
    else match m.value
      case JStr(s) => Member(m.key, JStr(RewriteRef(s, localToWrites)))
      case JArr(xs) => Member(m.key, JArr(FixItems(xs)))
      case _ => m
  }

  /** Any reference into the writes directory, whatever directory precedes
      it and whatever the mode, targets the write key of the named file. */
  lemma WritesRefTargetsWriteName(dir: string, f: string, localToWrites: bool)
    requires '/' !in f
    ensures RewriteRef(dir + "writes/" + f, localToWrites) == SchemaRef(WriteName(f))
  {
    var s := dir + "writes/" + f;
    assert OccursAt(s, "writes/", |dir|) by {
      assert s[|dir|..|dir| + 7] == "writes/";
    }
    RewriteCases(s, localToWrites);
    FixWriteTargetsWriteName(dir, f);
  }

  /** A bare file name targets the object key of that file in default mode
      and its write key in write-local mode. */
  lemma BareRefTargets(f: string, localToWrites: bool)
    requires '/' !in f && Contains(f, Yml)
    ensures RewriteRef(f, localToWrites) ==
            SchemaRef(if localToWrites then WriteName(f) else ObjectName(f))
  {
    ContainsChar(f, '/');
    RewriteCasesExclusive(f);
  }

  /** A reference without "writes/" that has a `/` or no ".yml" is kept.
      The "writes/" test looks at the whole string, so a JSON pointer that
      contains it is not kept (`PointerWithWritesRewritten`). */
  lemma OtherRefKept(s: string, localToWrites: bool)
    requires !Contains(s, "writes/")
    requires Contains(s, "/") || !Contains(s, Yml)
    ensures RewriteRef(s, localToWrites) == s
  {
  }

  /** The "writes/" test matches inside a JSON pointer too: a local
      definition named `rewrites/item` is turned into the pointer to the
      write schema of `item`, in either mode. */
  lemma PointerWithWritesRewritten(localToWrites: bool)
    ensures RewriteRef("#/definitions/rewrites/item", localToWrites) == SchemaRef(WriteName("item"))
  {
    assert "#/definitions/rewrites/item" == "#/definitions/re" + "writes/" + "item";
    WritesRefTargetsWriteName("#/definitions/re", "item", localToWrites);
  }

  /** Rewriting a rewritten tree changes nothing, whatever mode either pass
      uses. */
  lemma {:induction false} FixRefsIdempotent(j: Json, f: bool, g: bool)
    ensures FixRefs(FixRefs(j, f), g) == FixRefs(j, f)
    decreases j
  {
    match j
    case JArr(xs) => FixItemsIdempotent(xs);
    case JObj(ms) => FixMembersIdempotent(ms, f, g);
    case _ =>
  }

  lemma {:induction false} FixItemsIdempotent(xs: seq<Json>)
    ensures FixItems(FixItems(xs)) == FixItems(xs)
    decreases xs
  {
    var once := FixItems(xs);
    forall i | 0 <= i < |xs|
      ensures FixItems(once)[i] == once[i]
    {
      FixRefsIdempotent(xs[i], false, false);
    }
  }

  lemma {:induction false} FixMembersIdempotent(ms: seq<Member>, f: bool, g: bool)
    ensures FixMembers(FixMembers(ms, f), g) == FixMembers(ms, f)
    decreases ms
  {
    var once := FixMembers(ms, f);
    forall i | 0 <= i < |ms|
      ensures FixMembers(once, g)[i] == once[i]
    {
      FixMemberIdempotent(ms[i], f, g);
    }
  }

  lemma {:induction false} FixMemberIdempotent(m: Member, f: bool, g: bool)
    ensures FixMember(FixMember(m, f), g) == FixMember(m, f)
    decreases m
  {
    if m.key != RefKey {
      FixRefsIdempotent(m.value, false, false);
    } else {
      match m.value
      case JStr(s) => RewriteRefIdempotent(s, f, g);
      case JArr(xs) => FixItemsIdempotent(xs);
      case _ =>
    }
  }

  /** The mode flag reaches only the `$ref` properties of the root object:
      every other property comes out the same in either mode. */
  lemma ModeReachesRootRefsOnly(j: Json, i: nat)
    requires j.JObj? && i < |j.members| && j.members[i].key != RefKey
    ensures FixRefs(j, true).members[i] == FixRefs(j, false).members[i]
  {
    var m := j.members[i];
    assert FixMembers(j.members, true)[i] == FixMember(m, true);
    assert FixMembers(j.members, false)[i] == FixMember(m, false);
  }

  /** A root without a `$ref` property is rewritten the same in either mode. */
  lemma ModeIrrelevantWithoutRootRef(j: Json)
    requires j.JObj? ==> RefKey !in Keys(j.members)
    ensures FixRefs(j, true) == FixRefs(j, false)
  {
    if j.JObj? {
      forall i | 0 <= i < |j.members|
        ensures FixRefs(j, true).members[i] == FixRefs(j, false).members[i]
      {
        KeysAt(j.members, i);
        ModeReachesRootRefsOnly(j, i);
      }
    }
  }

  /** The assembler always rewrites `{name: fragment}`; since a schema name is
      never "$ref", a bare `foo.yml` inside a write fragment becomes the OBJECT
      pointer, not the write one, even in write-local mode. */
  lemma BareRefInWriteFragment(name: string, f: string)
    requires name != RefKey
    requires '/' !in f && Contains(f, Yml)
    ensures FixRefs(JObj([Member(name, JObj([Member(RefKey, JStr(f))]))]), true) ==
            JObj([Member(name, JObj([Member(RefKey, JStr(SchemaRef(ObjectName(f))))]))])
  {
    BareRefTargets(f, false);
    var ref := Member(RefKey, JStr(f));
    var inner := JObj([ref]);
    assert FixMember(ref, false) == Member(RefKey, JStr(SchemaRef(ObjectName(f))));
    assert FixMembers([ref], false) == [FixMember(ref, false)];
    var outer := Member(name, inner);
    assert FixMember(outer, true) == Member(name, FixRefs(inner, false));
    assert FixMembers([outer], true) == [FixMember(outer, true)];
  }
}

=== FILE: strings.dfy ===
/**
 * The JavaScript string operations the assembler relies on, over `seq<char>`:
 * `includes`, `indexOf`, `replace` with a string pattern, global replacement
 * of a literal pattern, `split` on one character, `charAt(0).toUpperCase()`,
 * `slice(1)`, `startsWith`, `endsWith` and the default string ordering.
 */
module Strings {
  import opened Wrappers

  /** `pat` occurs in `s` starting at index `i`. */
  predicate OccursAt(s: string, pat: string, i: nat)
  {
    i + |pat| <= |s| && s[i..i + |pat|] == pat
  }

  /** `s.includes(pat)`. */
  predicate Contains(s: string, pat: string)
  {
    exists i: nat | i + |pat| <= |s| :: OccursAt(s, pat, i)
  }

  /** The first occurrence of `pat` in `s` at or after `from`. */
  function IndexFrom(s: string, pat: string, from: nat): (r: Option<nat>)
    ensures r.Some? ==> from <= r.value && OccursAt(s, pat, r.value)
    ensures forall j: nat :: from <= j && (r.None? || j < r.value) ==> !OccursAt(s, pat, j)
    decreases |s| - from
  {
    if from + |pat| > |s| then None
    else if OccursAt(s, pat, from) then Some(from)
    else IndexFrom(s, pat, from + 1)
  }

  /** `s.indexOf(pat)`, with `None` standing for -1. */
  function IndexOf(s: string, pat: string): (r: Option<nat>)
    ensures r.None? <==> !Contains(s, pat)
    ensures r.Some? ==> OccursAt(s, pat, r.value)
    ensures r.Some? ==> forall j: nat :: j < r.value ==> !OccursAt(s, pat, j)
  {
    IndexFrom(s, pat, 0)
  }

  /** A one-character pattern occurs exactly when the character does. */
  lemma ContainsChar(s: string, c: char)
    ensures Contains(s, [c]) <==> c in s
  {
    if c in s {
      var i :| 0 <= i < |s| && s[i] == c;
      assert OccursAt(s, [c], i);
    }
    if Contains(s, [c]) {
      var i: nat :| i + 1 <= |s| && OccursAt(s, [c], i);
      assert s[i] == s[i..i + 1][0];
    }
  }

  /** Every character of an occurring pattern is a character of the string. */
  lemma ContainsChars(s: string, pat: string, c: char)
    requires Contains(s, pat) && c in pat
    ensures c in s
  {
    var i: nat :| i + |pat| <= |s| && OccursAt(s, pat, i);
    var k :| 0 <= k < |pat| && pat[k] == c;
    assert s[i + k] == s[i..i + |pat|][k];
  }

  /** `s.replace(pat, rep)` with a string pattern: the first occurrence only. */
  function ReplaceFirst(s: string, pat: string, rep: string): (r: string)
    ensures !Contains(s, pat) ==> r == s
    ensures Contains(s, pat) ==> |r| == |s| - |pat| + |rep|
    ensures forall c :: c in r ==> c in s || c in rep
  {
    match IndexOf(s, pat)
    case None => s
    case Some(i) =>
      assert forall c :: c in s[..i] || c in s[i + |pat|..] ==> c in s;
      s[..i] + rep + s[i + |pat|..]
  }

  /** When the displayed `pat` in `a + pat + t` is its first occurrence, that
      occurrence is the one replaced and everything around it is kept. */
  lemma ReplaceFirstAt(a: string, pat: string, rep: string, t: string)
    requires forall j: nat :: j < |a| ==> !OccursAt(a + pat + t, pat, j)
    ensures ReplaceFirst(a + pat + t, pat, rep) == a + rep + t
  {
    var s := a + pat + t;
    assert OccursAt(s, pat, |a|) by {
      assert s[|a|..|a| + |pat|] == pat;
    }
    assert IndexOf(s, pat) == Some(|a|);
    assert s[..|a|] == a;
    assert s[|a| + |pat|..] == t;
  }

  /** `s.replace(/pat/g, rep)` for a literal pattern: scan left to right,
      replace each occurrence and resume after it. */
  function ReplaceAll(s: string, pat: string, rep: string): (r: string)
    requires |pat| > 0
    ensures !Contains(s, pat) ==> r == s
    ensures forall c :: c in r ==> c in s || c in rep
    decreases |s|
  {
    match IndexOf(s, pat)
    case None => s
    case Some(i) =>
      var rest := ReplaceAll(s[i + |pat|..], pat, rep);
      assert forall c :: c in s[..i] || c in s[i + |pat|..] ==> c in s;
      s[..i] + rep + rest
  }

  /** When the first occurrence of `pat` in `a + pat + t` is the displayed one,
      the global replacement rewrites it and carries on with `t`. */
  lemma ReplaceAllAt(a: string, pat: string, rep: string, t: string)
    requires |pat| > 0
    requires forall j: nat :: j < |a| ==> !OccursAt(a + pat + t, pat, j)
    ensures ReplaceAll(a + pat + t, pat, rep) == a + rep + ReplaceAll(t, pat, rep)
  {
    var s := a + pat + t;
    assert OccursAt(s, pat, |a|) by {
      assert s[|a|..|a| + |pat|] == pat;
    }
    assert IndexOf(s, pat) == Some(|a|);
    assert s[..|a|] == a;
    assert s[|a| + |pat|..] == t;
  }

  /** `s.split(sep)` for a one-character separator. */
  function Split(s: string, sep: char): (parts: seq<string>)
    ensures |parts| >= 1
    ensures forall i :: 0 <= i < |parts| ==> sep !in parts[i]
    ensures sep in s <==> |parts| >= 2
    decreases |s|
  {
    if |s| == 0 then [""]
    else
      var rest := Split(s[1..], sep);
      assert sep in s <==> s[0] == sep || sep in s[1..];
      if s[0] == sep then [""] + rest
      else [[s[0]] + rest[0]] + rest[1..]
  }

  /** The inverse of `Split`: `parts.join(sep)`. */
  function Join(parts: seq<string>, sep: char): string
    requires |parts| >= 1
  {
    if |parts| == 1 then parts[0] else parts[0] + [sep] + Join(parts[1..], sep)
  }

  /** Splitting loses nothing: joining the parts gives the string back. */
  lemma {:induction false} SplitJoin(s: string, sep: char)
    ensures Join(Split(s, sep), sep) == s
    decreases |s|
  {
    if |s| > 0 {
      var rest := Split(s[1..], sep);
      SplitJoin(s[1..], sep);
      assert s == [s[0]] + s[1..];
      if s[0] != sep && |rest| > 1 {
        assert ([[s[0]] + rest[0]] + rest[1..])[1..] == rest[1..];
      }
    }
  }

  /** The last part of `s.split(sep)`: what follows the last separator. */
  function LastSegment(s: string, sep: char): (r: string)
    ensures sep !in r
  {
    var parts := Split(s, sep);
    parts[|parts| - 1]
  }

  /** A separator-free string is its own single part. */
  lemma {:induction false} SplitNoSeparator(f: string, sep: char)
    requires sep !in f
    ensures Split(f, sep) == [f]
    decreases |f|
  {
    if |f| > 0 {
      SplitNoSeparator(f[1..], sep);
      assert f == [f[0]] + f[1..];
    }
  }

  /** Whatever precedes the last separator, the last segment is what follows it. */
  lemma {:induction false} LastSegmentAfter(p: string, sep: char, f: string)
    requires sep !in f
    ensures LastSegment(p + [sep] + f, sep) == f
    decreases |p|
  {
    var s := p + [sep] + f;
    if |p| == 0 {
      assert s == [sep] + f;
      assert s[1..] == f;
      SplitNoSeparator(f, sep);
    } else {
      assert s[1..] == p[1..] + [sep] + f;
      LastSegmentAfter(p[1..], sep, f);
      assert sep in s[1..] by {
        assert s[1..][|p| - 1] == sep;
      }
    }
  }

  /** `c.toUpperCase()` for one character, on the ASCII letters. */
  function Upper(c: char): (u: char)
    ensures 'a' <= c <= 'z' ==> 'A' <= u <= 'Z' && u as int == c as int - 32
    ensures !('a' <= c <= 'z') ==> u == c
  {
    if 'a' <= c <= 'z' then (c as int - 32) as char else c
  }

  /** `s.charAt(0).toUpperCase()`: empty for the empty string. */
  function UpperFirst(s: string): (r: string)
    ensures |s| == 0 ==> r == ""
    ensures |s| > 0 ==> |r| == 1 && r[0] == Upper(s[0])
  {
    if |s| == 0 then "" else [Upper(s[0])]
  }

  /** `s.slice(1)`. */
  function Tail(s: string): (r: string)
    ensures |s| > 0 ==> [s[0]] + r == s
    ensures |s| == 0 ==> r == ""
  {
    if |s| == 0 then "" else s[1..]
  }

  /** `s.startsWith(p)`. */
  predicate StartsWith(s: string, p: string)
  {
    |p| <= |s| && s[..|p|] == p
  }

  /** `s.endsWith(p)`. */
  predicate EndsWith(s: string, p: string)
  {
    |p| <= |s| && s[|s| - |p|..] == p
  }

  /** `a <= b` in JavaScript's default string order: by character code at the
      first difference, a proper prefix first. */
  predicate Below(a: string, b: string)
    decreases |a|
  {
    if |a| == 0 then true
    else if |b| == 0 then false
    else if a[0] != b[0] then a[0] < b[0]
    else Below(a[1..], b[1..])
  }

  lemma {:induction false} BelowTotal(a: string, b: string)
    ensures Below(a, b) || Below(b, a)
    decreases |a|
  {
    if |a| > 0 && |b| > 0 && a[0] == b[0] {
      BelowTotal(a[1..], b[1..]);
    }
  }

  lemma {:induction false} BelowAntisymmetric(a: string, b: string)
    requires Below(a, b) && Below(b, a)
    ensures a == b
    decreases |a|
  {
    if |a| > 0 {
      BelowAntisymmetric(a[1..], b[1..]);
      assert a == [a[0]] + a[1..] && b == [b[0]] + b[1..];
    }
  }

  lemma {:induction false} BelowTransitive(a: string, b: string, c: string)
    requires Below(a, b) && Below(b, c)
    ensures Below(a, c)
    decreases |a|
  {
    if |a| > 0 && a[0] == b[0] && b[0] == c[0] {
      BelowTransitive(a[1..], b[1..], c[1..]);
    }
  }

  /** The decimal spelling of an array index or string position, as
      `Object.keys` produces it. */
  function DecimalString(n: nat): (r: string)
    ensures |r| >= 1
    ensures Digits(r)
    ensures n > 0 ==> r[0] != '0'
  {
    var d := ['0' + (n % 10) as char];
    if n < 10 then d else DecimalString(n / 10) + d
  }

  /** Every character is a decimal digit. */
  predicate Digits(s: string)
  {
    forall i :: 0 <= i < |s| ==> '0' <= s[i] <= '9'
  }

  /** The number a string of decimal digits spells, most significant first. */
  function DigitsValue(s: string): nat
    requires Digits(s)
  {
    if |s| == 0 then 0 else DigitsValue(s[..|s| - 1]) * 10 + (s[|s| - 1] as int - '0' as int)
  }

  /** Reading the spelling back gives the index, so distinct indices get
      distinct names. */
  lemma {:induction false} DecimalStringValue(n: nat)
    ensures DigitsValue(DecimalString(n)) == n
    decreases n
  {
    var r := DecimalString(n);
    if n >= 10 {
      DecimalStringValue(n / 10);
      assert r[..|r| - 1] == DecimalString(n / 10);
    }
  }

  /** Distinct indices are spelled differently. */
  lemma DecimalStringInjective(m: nat, n: nat)
    ensures DecimalString(m) == DecimalString(n) <==> m == n
  {
    DecimalStringValue(m);
    DecimalStringValue(n);
  }
}

=== FILE: wrappers.dfy ===
/** The optional values and outcomes used throughout the model. */
module Wrappers {

  /** A value that may be absent. */
  datatype Option<+T> = None | Some(value: T)

  /** The outcome of an operation that can fail with an error of type `E`. */
  datatype Result<+R, +E> = Success(value: R) | Failure(error: E)
}
